=== FILE: README.md ===
# valtio-history: the undo/redo engine of `proxyWithHistory`

`proxyWithHistory(initialValue, options)` wraps a value in a valtio proxy
container `{value, history: {wip, nodes, index}}`. Every change an
application makes to `value` is recorded as one node of a linear log. A
cursor names the node being shown. `undo`, `redo` and `goTo` move the
cursor and write a clone of that node's snapshot back into `value`.
`remove` and `replace` rewrite the log out of band. The engine writes
through a scratch slot `wip`, so its own writes can be told apart from
the application's when valtio reports them.

The repository ships the engine twice:
- `packages/history-utility/src/history-utility.ts` is the copy the tests
  import (`Legacy` in the model).
- `packages/history-utility/src/index.ts` is the package entry point
  (`Published`). It adds `normalizeOptions`, the derived getters and the
  `EMPTY_WIP` sentinel.

Both copies are modelled by one set of functions over an immutable
`History.State` that records which copy built it. The only branches are
where the two files differ.

Modules:
- `Values`: JavaScript values, `deepClone`, and the identity that `===`
  compares. Each `JsValue` carries an address. Objects compare by address,
  ref-marked objects by their ref id, and everything else by content.
  An address is either an engine address, numbered in the order the
  engine's clone allocates, or an application address, so no object the
  application builds is one of the engine's clones. The state keeps the
  next engine number above every engine object in the scratch slot
  (`History.AddrsFresh`), so each clone is a new object. "The batch
  reports the engine's own write" is therefore reference identity and not
  structural equality.
- `Options`: the second argument of `proxyWithHistory`, how `normalizeOptions`
  reads it, and how each copy decides whether to subscribe.
- `History`: the log, `saveHistory`, construction, `getNode` and
  `getCurrentChangeDate`.
- `Bridge`: the mutation batches valtio reports (`seq<Op>`),
  `shouldSaveHistory`, and the listeners `subscribe` registers.
- `Navigator`: `canUndo`/`canRedo`, `undo`, `redo`, `goTo`, and the
  `?? EMPTY_WIP` fallback of index.ts.
- `Editor`: `remove` and `replace`.
- `Published`: the getters of index.ts and what its sentinel changes.
- `Invariants`: arbitrary sessions of calls, and the invariants they keep.
- `Scenarios`: the sessions the repository's tests walk through.

What the source does is modelled as the code does it, including three
behaviours a reader may not expect:
- In index.ts, `undo`, `redo` or `remove` onto a `null`/`undefined`
  snapshot leaves the sentinel symbol itself in `value`
  (`Published.NullishStepLeavesSentinel`).
- history-utility.ts drops a write of `undefined` made right after
  construction, because its empty scratch slot is `undefined`
  (`Published.SentinelAdmitsUndefinedWrite`).
- The echo filter drops an application write of a primitive equal to the
  last primitive the engine restored (`Scenarios.RestoredPrimitiveWriteIsDropped`).
  This holds in history-utility.ts, and in index.ts for primitives other
  than `null` and `undefined`: index.ts keeps its sentinel in the scratch
  slot after restoring a nullish snapshot (`Published.NullishStepLeavesSentinel`),
  so a later write of `null` is recorded (`Published.NullWriteAfterNullishUndo`).

## Model

| member | source | states |
|---|---|---|
| Values.DeepClone | packages/history-utility/src/history-utility.ts:55-69 | the clone has exactly the input's structure: primitives and ref-marked objects come back as they are, and arrays and objects come back with the same keys, in order, holding equal entries |
| Values.CloneElems | packages/history-utility/src/history-utility.ts:62-67 | cloning an array's entries gives back the same entries in the same order |
| Values.CloneProps | packages/history-utility/src/history-utility.ts:64-67 | cloning an object's own keys keeps every key, in order, with equal entries |
| Values.CloneAt | packages/history-utility/src/history-utility.ts:59-68 | the engine's clone has the original's content, and a copied array or object is a new object at the address the engine allocates |
| Values.CloneIsFresh | packages/history-utility/src/history-utility.ts:62-68 | a cloned array or object is never `===` to an original at another address |
| Values.ClonePassesThrough | packages/history-utility/src/history-utility.ts:59-61 | a primitive or ref-marked value comes back `===` to itself |
| Values.EngineNeverMatchesAppObject | packages/history-utility/src/history-utility.ts:213 | an object the application made is never `===` to any value the engine made, so such a write is never taken for the echo |
| Options.NormalizeOptions | packages/history-utility/src/index.ts:47-71 | a boolean `b` becomes `{skipSubscribe: b}`; a missing argument or an empty object gives the defaults (`false`); an object's field overrides the default; the field is `undefined` exactly when the caller set it to `undefined` |
| Options.SkipDecisionsAgree | packages/history-utility/src/index.ts:342-344 | both copies decide the same about subscribing for every argument except the deprecated boolean, which only index.ts honours and history-utility.ts ignores |
| History.SaveHistory | packages/history-utility/src/history-utility.ts:195-202 | drops every node after the cursor, keeps the ones before in order, and appends one node with the current value and the creation time; the cursor moves one forward onto the new last node, so the log has `index + 2` nodes and shows the value; from the empty log at `-1` this gives one node at 0 |
| History.Create | packages/history-utility/src/history-utility.ts:103-119 | a new container holds one node with the initial value, and its cursor is 0 and shows that value; the scratch slot starts `undefined` in history-utility.ts and as the sentinel in index.ts, an engine value with fresh numbering; one listener is registered unless the options skip it |
| History.GetNode | packages/history-utility/src/history-utility.ts:137-142 | returns a node exactly when one exists at `i`, with the same creation and update times and a snapshot equal to the stored one |
| History.GetCurrentChangeDate | packages/history-utility/src/history-utility.ts:125-128 | returns a date exactly when the cursor names a node, and it is that node's creation time |
| Bridge.ShouldSaveHistory | packages/history-utility/src/history-utility.ts:209-214 | a batch is recorded exactly when every op's path starts with `value` and no op is a `set` whose new value is `===` to the scratch value |
| Bridge.Deliver | packages/history-utility/src/history-utility.ts:218-221 | each pending listener saves once when the batch passes the filter: the cursor advances by the number of listeners, the prefix up to the old cursor is kept, and every appended node holds the current value; a rejected batch, or one with no listeners, changes nothing; the scratch slot and everything outside the log stay |
| Bridge.Subscribe | packages/history-utility/src/history-utility.ts:218-221 | `subscribe()` registers one more listener and changes nothing else |
| Bridge.Notify | packages/history-utility/src/history-utility.ts:218-221 | a batch reaches every registered listener: a batch the filter rejects, or one with no listener, changes nothing; an accepted one from a valid state keeps the nodes up to the cursor, appends one node per listener holding the current value, leaves the cursor on the last, and changes nothing outside the log |
| Bridge.Mutate | packages/history-utility/src/history-utility.ts:218-221 | an application write sets `value` and leaves the scratch slot alone; when its batch is rejected nothing else changes |
| Bridge.MutationRecords | packages/history-utility/src/history-utility.ts:218-221 | with the one listener `proxyWithHistory` registers, an accepted change becomes the log prefix up to the cursor plus one node with the new value, shown by the cursor; a rejected change leaves the history alone |
| Bridge.EachListenerSaves | packages/history-utility/src/history-utility.ts:218-221 | an accepted batch appends one node per registered listener |
| Bridge.SubscribeAgainSavesAgain | packages/history-utility/src/history-utility.ts:218-221 | after one more `subscribe()`, every accepted batch appends one more node |
| Bridge.EchoIsNotRecorded | packages/history-utility/src/history-utility.ts:213 | the batch reporting the engine's own write of the scratch value changes nothing |
| Bridge.BatchWithEchoIsNotRecorded | packages/history-utility/src/history-utility.ts:209-214 | a batch that holds the engine's own write anywhere is dropped whole |
| Bridge.ForeignWriteIsRecorded | packages/history-utility/src/history-utility.ts:209-221 | a `set` of `value` to anything not `===` to the scratch value is recorded as exactly one node right after the cursor |
| Bridge.OutsideValueIsNotRecorded | packages/history-utility/src/history-utility.ts:212 | a batch with any op outside `value` is not recorded |
| Navigator.Settle | packages/history-utility/src/index.ts:207-210 | index.ts replaces a nullish clone by its sentinel; a non-nullish clone, and every clone in history-utility.ts, is kept |
| Navigator.CanUndo | packages/history-utility/src/history-utility.ts:163 | `canUndo()` is `index > 0`; in a valid state it holds exactly when a node lies just before the cursor |
| Navigator.CanRedo | packages/history-utility/src/history-utility.ts:179-180 | `canRedo()` is `index < nodes.length - 1`; in a valid state it holds exactly when a node lies just after the cursor |
| Navigator.WriteBack | packages/history-utility/src/history-utility.ts:169-172 | an internal write stores a fresh clone of the snapshot in the scratch slot and assigns the slot to `value`, leaving log and cursor alone |
| Navigator.WriteBackIsNew | packages/history-utility/src/history-utility.ts:169-172 | when the engine's numbering is fresh, the object an internal write puts in the scratch slot is never `===` to the one the slot held before |
| Navigator.Undo | packages/history-utility/src/history-utility.ts:167-174 | when undo is disabled nothing changes; otherwise the cursor moves back one over the unchanged log and `value` and `wip` show that node's snapshot (the sentinel for a nullish snapshot in index.ts); the cursor stays on a node |
| Navigator.Redo | packages/history-utility/src/history-utility.ts:184-191 | the mirror of `undo`, one node forward |
| Navigator.GoTo | packages/history-utility/src/history-utility.ts:150-158 | with no node at `i` nothing changes; otherwise the cursor is `i`, the log is unchanged, and `value` is that node's snapshot, with no sentinel fallback in either copy |
| Navigator.NavigationActsIffEnabled | packages/history-utility/src/history-utility.ts:163-191 | `undo` changes the state exactly when `canUndo()`, and `redo` exactly when `canRedo()`; a disabled step repeated is harmless |
| Navigator.EnabledMeansNeighbour | packages/history-utility/src/history-utility.ts:163-180 | in a valid state, undo (redo) is enabled exactly when a node lies just before (after) the cursor |
| Navigator.UndoThenRedo | packages/history-utility/src/history-utility.ts:167-191 | `undo(); redo()` restores the log and the cursor, and from a synced state also the value |
| Navigator.RedoThenUndo | packages/history-utility/src/history-utility.ts:167-191 | `redo(); undo()` restores the log and the cursor, and from a synced state also the value |
| Navigator.LegacyNavigationStaysSynced | packages/history-utility/src/history-utility.ts:150-191 | in history-utility.ts every navigation step leaves `value` equal to the snapshot under the cursor |
| Editor.Remove | packages/history-utility/src/history-utility.ts:235-260 | with no node at `i` or fewer than two nodes nothing changes and nothing is returned; otherwise the old node `i` is returned and the log is the old one with position `i` deleted, order kept; an earlier node moves the cursor back, a later one leaves cursor and value; removing the current node shows the successor's snapshot and keeps the cursor, or, when it is last, shows the predecessor's and moves the cursor back; the cursor stays on a node |
| Editor.RemoveKeepsCursorOnItsNode | packages/history-utility/src/history-utility.ts:243-257 | after a removal the cursor names the node it named before, or the neighbour `remove` picked, so a synced state stays synced (in index.ts unless that neighbour is nullish) |
| Editor.RemoveNeverEmpties | packages/history-utility/src/history-utility.ts:241 | the last node can never be removed |
| Editor.Replace | packages/history-utility/src/history-utility.ts:278-294 | with no node at `i` nothing changes; otherwise only node `i` changes, getting the new snapshot and update time and keeping its creation time; length and cursor stay; `value` and `wip` become the new snapshot exactly when `i` is current |
| Published.IsUndoEnabled | packages/history-utility/src/index.ts:185-187 | `isUndoEnabled` equals `canUndo()` in every state |
| Published.IsRedoEnabled | packages/history-utility/src/index.ts:192-194 | `isRedoEnabled` equals `canRedo()` in every state |
| Published.CurrentIndex | packages/history-utility/src/index.ts:141-143 | `currentIndex` is the cursor `history.index`, so it names one of the nodes exactly when the state is valid |
| Published.HistoryNodeCount | packages/history-utility/src/index.ts:148-150 | `historyNodeCount` is the log's length `history.nodes.length`, never zero in a valid state and greater than the cursor |
| Published.CurrentChangeDate | packages/history-utility/src/index.ts:132-135 | `currentChangeDate` equals `getCurrentChangeDate()`: the current node's creation time, or nothing when the cursor names no node |
| Published.GettersAgree | packages/history-utility/src/index.ts:123-194 | `isUndoEnabled`/`isRedoEnabled` equal `canUndo()`/`canRedo()` in every state, `currentChangeDate` equals `getCurrentChangeDate()`, and in a valid state it is the creation time of node `currentIndex`, one of `historyNodeCount` nodes |
| Published.SentinelAdmitsUndefinedWrite | packages/history-utility/src/index.ts:112-116 | after construction on a defined value, index.ts records a write of `undefined`, which history-utility.ts drops as its own echo |
| Published.NullishStepLeavesSentinel | packages/history-utility/src/index.ts:205-233 | in index.ts, `undo`, `redo` and `remove` of the current node onto a nullish snapshot leave the sentinel in `value`, out of step with the log |
| Published.NullWriteAfterNullishUndo | packages/history-utility/src/index.ts:205-212 | after `undo` onto a `null` snapshot, setting the tracked value to `null` is recorded in index.ts, whose scratch slot holds the sentinel, as one node holding `null` right after the cursor with the cursor on it; history-utility.ts drops it as the echo and only `value` changes |
| Published.GoToAndReplaceHaveNoFallback | packages/history-utility/src/index.ts:172-180 | in index.ts, `goTo` and `replace` pass a nullish snapshot into `value` as it is |
| Published.UndoToNullInitialValue | packages/history-utility/src/index.ts:205-213 | from a container built on `null`, one change and one undo show `null` in history-utility.ts and the sentinel in index.ts |
| Invariants.ApplyKeepsValid | packages/history-utility/src/history-utility.ts:150-294 | every operation keeps `0 <= index < nodes.length` |
| Invariants.RunKeepsValid | packages/history-utility/src/history-utility.ts:150-294 | any sequence of operations keeps the cursor on a node |
| Invariants.SessionKeepsValid | packages/history-utility/src/history-utility.ts:297-301 | in both copies, every session that starts from construction keeps the cursor on a node after every call |
| Invariants.ApplyKeepsSynced | packages/history-utility/src/history-utility.ts:150-294 | in history-utility.ts every call except an unrecorded write keeps `value` equal to the snapshot under the cursor |
| Invariants.RunKeepsSynced | packages/history-utility/src/history-utility.ts:150-294 | in history-utility.ts a session whose writes are all recorded keeps `value` equal to the snapshot under the cursor throughout |
| Invariants.ApplyKeepsFresh | packages/history-utility/src/history-utility.ts:150-294 | every call keeps each engine object in the scratch slot numbered below the next allocation, provided `replace` is not handed an engine object not yet allocated |
| Invariants.RunKeepsFresh | packages/history-utility/src/history-utility.ts:150-294 | a session whose `replace` calls pass application objects keeps the engine's numbering fresh throughout |
| Invariants.AppObjectWriteIsRecorded | packages/history-utility/src/history-utility.ts:167-221 | whenever `undo`, `redo`, `goTo` or `remove` leaves an engine object in the scratch slot, whatever the slot held before (including the caller's object after `replace`), a `set` of `value` to an object the application made is recorded as one node right after the cursor, keeping the prefix |
| Invariants.ActingStepLeavesEngineObject | packages/history-utility/src/history-utility.ts:150-260 | an enabled `undo` or `redo`, and `goTo` to an existing node, leave a fresh engine clone (or index.ts's sentinel) in the scratch slot whatever it held before; so does removing the current node |
| Scenarios.HoldsCountsMeansSnapshots | packages/history-utility/src/__tests__/history-utility.vanilla.spec.ts:5-6 | the list of counts the tests compare is the log's snapshot list |
| Scenarios.IncrementRecords | packages/history-utility/src/__tests__/history-utility.vanilla.spec.ts:264-265 | an increment at the end of the log appends exactly one node with the new count and moves the cursor onto it |
| Scenarios.CountToShape | packages/history-utility/src/__tests__/history-utility.vanilla.spec.ts:262-278 | counting to `n` leaves `n + 1` nodes holding counts 0 to `n` and the cursor on `n` |
| Scenarios.UndoAwaitedShows | packages/history-utility/src/__tests__/history-utility.vanilla.spec.ts:19-21 | an awaited undo shows the previous snapshot, and the echo of its write is not recorded |
| Scenarios.RedoAwaitedShows | packages/history-utility/src/__tests__/history-utility.vanilla.spec.ts:23-25 | an awaited redo shows the next snapshot, and the echo of its write is not recorded |
| Scenarios.AwaitedUndosAreUndos | packages/history-utility/src/__tests__/history-utility.vanilla.spec.ts:46-56 | `n` awaited undos end in the same state as `n` plain `undo()` calls: each batch is the echo |
| Scenarios.AwaitedRedosAreRedos | packages/history-utility/src/__tests__/history-utility.vanilla.spec.ts:79-96 | `n` awaited redos end in the same state as `n` plain `redo()` calls |
| Scenarios.UndoStepsShow | packages/history-utility/src/history-utility.ts:167-174 | `n` `undo()` calls move the cursor back `n` nodes over the unchanged log and show the snapshot there |
| Scenarios.RedoStepsShow | packages/history-utility/src/history-utility.ts:184-191 | `n` `redo()` calls move the cursor forward `n` nodes over the unchanged log and show the snapshot there |
| Scenarios.UndoTimesShows | packages/history-utility/src/__tests__/history-utility.vanilla.spec.ts:46-56 | `n` awaited undos move the cursor back `n` nodes over the unchanged log and show the snapshot there |
| Scenarios.RedoTimesShows | packages/history-utility/src/__tests__/history-utility.vanilla.spec.ts:79-96 | `n` awaited redos move the cursor forward `n` nodes over the unchanged log and show the snapshot there |
| Scenarios.BasicUndoRedo | packages/history-utility/src/__tests__/history-utility.vanilla.spec.ts:10-26 | one increment, undo shows 0, redo shows 1 |
| Scenarios.SequentialUndo | packages/history-utility/src/__tests__/history-utility.vanilla.spec.ts:28-58 | the value and both enabled flags after construction, two increments and two undos |
| Scenarios.SequentialUndoRedo | packages/history-utility/src/__tests__/history-utility.vanilla.spec.ts:60-97 | count to 3, undo three times and redo three times, with the value and both enabled flags after each step |
| Scenarios.FiveUndoneThrice | packages/history-utility/src/__tests__/history-utility.vanilla.spec.ts:318-337 | count to 5 and undo three times: value 2, cursor 2, log 0 to 5 |
| Scenarios.RemoveNothing | packages/history-utility/src/__tests__/history-utility.vanilla.spec.ts:101-133 | `remove(0)` on a single node and `remove(200)` change nothing |
| Scenarios.RemoveCurrentEchoes | packages/history-utility/src/history-utility.ts:247-248 | the echo of removing the current node records nothing |
| Scenarios.RemoveEarlierNode | packages/history-utility/src/__tests__/history-utility.vanilla.spec.ts:135-161 | `remove(1)` from cursor 5 gives log 0,2,3,4,5, cursor 4, value 5 |
| Scenarios.RemoveLaterNode | packages/history-utility/src/__tests__/history-utility.vanilla.spec.ts:163-195 | `remove(4)` from cursor 2 gives log 0,1,2,3,5, cursor 2, value 2 |
| Scenarios.RemoveCurrentNotLast | packages/history-utility/src/__tests__/history-utility.vanilla.spec.ts:197-229 | `remove(2)` at cursor 2 gives log 0,1,3,4,5, cursor 2, value 3 |
| Scenarios.RemoveCurrentLast | packages/history-utility/src/__tests__/history-utility.vanilla.spec.ts:231-257 | `remove(5)` at cursor 5 gives log 0,1,2,3,4, cursor 4, value 4 |
| Scenarios.ReplaceOutOfRange | packages/history-utility/src/__tests__/history-utility.vanilla.spec.ts:261-287 | `replace(100, …)` changes nothing |
| Scenarios.ReplaceCurrentEchoes | packages/history-utility/src/history-utility.ts:290-293 | the echo of replacing the current node records nothing |
| Scenarios.ReplaceCurrent | packages/history-utility/src/__tests__/history-utility.vanilla.spec.ts:289-349 | `replace(5, {count: 100})` at cursor 5 gives log 0,1,2,3,4,100 and `replace(2, {count: 100})` at cursor 2 gives log 0,1,100,3,4,5; both show 100 and keep length and cursor |
| Scenarios.ReplaceAtTwo | packages/history-utility/src/__tests__/history-utility.vanilla.spec.ts:342-348 | the replacement at the cursor on 2, on any log of counts 0 to 5 |
| Scenarios.ReplaceNonCurrent | packages/history-utility/src/__tests__/history-utility.vanilla.spec.ts:351-387 | `replace(3, …)` and `replace(4, …)` at cursor 2 give log 0,1,2,100,200,5 with cursor and value unchanged |
| Scenarios.ChangeAfterUndoDropsRedoTail | packages/history-utility/src/history-utility.ts:195-202 | count to 3, undo twice and increment: log 0,1,2, cursor 2, nothing to redo |
| Scenarios.IncrementAtOne | packages/history-utility/src/history-utility.ts:195-202 | an increment on a log of counts 0 to 3 with the cursor on 1 cuts the log to 0,1,2 |
| Scenarios.GoToAnywhere | packages/history-utility/src/history-utility.ts:150-158 | `goTo(4)` on a log of counts 0 to 5 shows 4 with the log intact, and `goTo(100)` afterwards changes nothing |
| Scenarios.GoToFourOfSix | packages/history-utility/src/history-utility.ts:150-158 | the same jumps on any log of counts 0 to 5 |
| Scenarios.UndoTwiceShows | packages/history-utility/src/history-utility.ts:209-214 | two undos in one handler form one batch whose last write is the echo: nothing is recorded and the cursor lands two nodes back on its snapshot |
| Scenarios.RedoTwiceShows | packages/history-utility/src/history-utility.ts:209-214 | two redos in one handler land two nodes forward, recording nothing |
| Scenarios.MultipleRedosAtOnce | packages/history-utility/src/__tests__/history-utility.react.spec.tsx:175-222 | a nested counter counted to 2, undone twice in one handler (0) and redone twice in one handler (2) keeps three nodes throughout |
| Scenarios.RestoredPrimitiveWriteIsDropped | packages/history-utility/src/history-utility.ts:213 | tracking a number: record 1, undo to 0, record 5, then set 0, and the 0 is not recorded although `value` no longer matches the node under the cursor |

## Left out

- valtio's `proxy`, `subscribe` and `snapshot`: a change is the new `value` plus the batch valtio would report for it, given explicitly. An awaited tick is one `Notify`. `snapshot(proxyObject).value` is the current value. The op's `newValue` is taken to be the value that was assigned, as valtio reports it.
- The unsubscribe handle that `subscribe()` returns is not modelled. Listeners are only counted.
- `deepClone`: the lazy lookup of valtio's ref set, prototypes, symbol keys, and objects other than arrays and plain objects (`Date`, `Map`, class instances) are left out. A ref-marked object is the `Ref` variant.
- Values.DeepClone is history-utility.ts's own clone (lines 55-69). index.ts instead imports `deepClone` from `valtio/vanilla/utils` (index.ts:3, 168), which is not part of this model; both copies use the modelled clone, on the assumption that the two agree on arrays, plain objects, primitives and ref-marked values.
- Cyclic values are left out: a `Value` is a finite tree.
- Only the identity of the top-level written value is tracked. Nested objects inside a value have no address of their own, since the filter compares only `op[2]` with `wip`.
- `new Date()` is left out: each operation takes its time as a parameter.
- Numbers are mathematical integers, so floating point, `NaN` and `-0` are left out. Indices are integers, without JavaScript's string-key coercion.
- The deprecation `console.warn`, the `import.meta.env` check of index.ts, and `helpers.ts` are left out, because they are logging only.
- The React tests' rendering, the example app and `tools/scripts/publish.mjs` are left out. Only the engine calls they make are modelled.
- The `#516` nested-arrays scenario (packages/history-utility/src/__tests__/history-utility.react.spec.tsx:227-320) is left out. It concerns valtio's tracking of nested proxies, which is not part of this model.
- Bridge.Deliver: the appended nodes are described only when the cursor lies between `-1` and the last node. Beyond that, the body follows `splice`'s start rule (`History.SpliceStart`) but the contract says nothing.
- Navigator.Undo and Navigator.Redo state `Shows` only for valid states. Outside them `nodes[index]?.snapshot` is `undefined`, which the body models through `History.SnapshotAt`.
- Invariants.ApplyKeepsSynced, Invariants.RunKeepsSynced: these hold for history-utility.ts only. The copy in index.ts loses sync on nullish snapshots (`Published.NullishStepLeavesSentinel`).
- The values a batch reports and the value `replace` is handed are not constrained. A modelled batch may carry `EmptyWip` or an engine address the engine never allocated, which real application code cannot produce. The lemmas about application writes state their assumption instead: an application address (`Invariants.AppObjectWriteIsRecorded`), or `replace` handed application objects (`Invariants.RunKeepsFresh`).
- `replace` stores the caller's object by reference, so a later mutation of that object would change the stored node and the scratch slot with it. Values here are immutable, so this aliasing is not modelled; the stored snapshot is taken to be frozen, as the method's documentation asks.
- valtio never delivers an empty batch, but `Bridge.Notify` accepts one (`every` holds on no ops) and records it. The model leaves it to callers not to pass one.

=== FILE: bridge.dfy ===
/** The subscription that turns mutation batches on the container into
    recordings, and the filter that keeps the engine's own writes out. */
module Bridge {
  import opened Wrappers
  import opened Values
  import opened History

  /** One operation of a batch valtio reports: a `set` with the value written,
      or a `delete`; `path` starts at the container's own property. */
  datatype Op = Set(path: seq<string>, newValue: JsValue) | Delete(path: seq<string>)

  /** `op[1][0] === 'value'`. */
  predicate UnderValue(op: Op) {
    |op.path| > 0 && op.path[0] == "value"
  }

  /** A `set` of exactly the value held in the scratch slot, by `===`. */
  predicate IsEcho(op: Op, wip: JsValue) {
    op.Set? && StrictEq(op.newValue, wip)
  }

  /** `shouldSaveHistory(ops)`: `ops.every(...)`, taken one operation at a time. */
  function ShouldSaveHistory(ops: seq<Op>, wip: JsValue): (b: bool)
    ensures b <==> forall i :: 0 <= i < |ops| ==> UnderValue(ops[i]) && !IsEcho(ops[i], wip)
  {
    if ops == [] then true
    else UnderValue(ops[0]) && !IsEcho(ops[0], wip) && ShouldSaveHistory(ops[1..], wip)
  }

  /** `subscribe()`: one more listener; calling it twice registers two. */
  function Subscribe(s: State): (r: State)
    ensures r.listeners == s.listeners + 1 && r == s.(listeners := r.listeners)
  {
    s.(listeners := s.listeners + 1)
  }

  /** The listeners still to run for a batch each test the batch and save. */
  function Deliver(s: State, ops: seq<Op>, now: Time, pending: nat): (r: State)
    ensures r == s.(history := r.history) && r.history.wip == s.history.wip
    ensures pending == 0 || !ShouldSaveHistory(ops, s.history.wip) ==> r == s
    ensures ShouldSaveHistory(ops, s.history.wip) && pending > 0 && -1 <= s.history.index < |s.history.nodes| ==>
              && Synced(r)
              && r.history.index == s.history.index + pending
              && |r.history.nodes| == s.history.index + 1 + pending
              && (forall j :: 0 <= j <= s.history.index ==> r.history.nodes[j] == s.history.nodes[j])
              && (forall j :: s.history.index < j < |r.history.nodes| ==> r.history.nodes[j] == Node(s.value, now, None))
    decreases pending
  {
    if pending == 0 then s
    else
      var next := if ShouldSaveHistory(ops, s.history.wip) then SaveHistory(s, now) else s;
      Deliver(next, ops, now, pending - 1)
  }

  /** The batch reaches every registered listener. */
  function Notify(s: State, ops: seq<Op>, now: Time): (r: State)
    ensures r == s.(history := r.history) && r.history.wip == s.history.wip
    ensures !ShouldSaveHistory(ops, s.history.wip) || s.listeners == 0 ==> r == s
    ensures ShouldSaveHistory(ops, s.history.wip) && s.listeners > 0 && Valid(s) ==>
              && Synced(r)
              && r.history.index == s.history.index + s.listeners
              && |r.history.nodes| == s.history.index + 1 + s.listeners
              && (forall j :: 0 <= j <= s.history.index ==> r.history.nodes[j] == s.history.nodes[j])
              && (forall j :: s.history.index < j < |r.history.nodes| ==> r.history.nodes[j] == Node(s.value, now, None))
  {
    Deliver(s, ops, now, s.listeners)
  }

  /** The application writes `newValue` into the container and valtio reports
      the batch `ops` describing it. */
  function Mutate(s: State, newValue: Value, ops: seq<Op>, now: Time): (r: State)
    ensures r.value == newValue && r.history.wip == s.history.wip
    ensures !ShouldSaveHistory(ops, s.history.wip) ==> r == s.(value := newValue)
  {
    Notify(s.(value := newValue), ops, now)
  }

  /** The one listener `proxyWithHistory` registers records a batch that passes
      the filter as exactly one node holding the new value, dropping the redo
      tail; a batch the filter rejects changes nothing but the value. */
  lemma MutationRecords(s: State, newValue: Value, ops: seq<Op>, now: Time)
    requires Valid(s) && s.listeners == 1
    ensures var r := Mutate(s, newValue, ops, now);
      && r.value == newValue
      && (ShouldSaveHistory(ops, s.history.wip) ==>
            && Synced(r)
            && r.history.nodes == s.history.nodes[..s.history.index + 1] + [Node(newValue, now, None)])
      && (!ShouldSaveHistory(ops, s.history.wip) ==> r.history == s.history)
  {
    var r := Mutate(s, newValue, ops, now);
    if ShouldSaveHistory(ops, s.history.wip) {
      assert r.history.nodes == s.history.nodes[..s.history.index + 1] + [Node(newValue, now, None)];
    }
  }

  /** Every listener saves: `subscribe()` called once more than needed makes
      each accepted batch append one node per listener. */
  lemma EachListenerSaves(s: State, ops: seq<Op>, now: Time)
    requires Valid(s) && ShouldSaveHistory(ops, s.history.wip) && s.listeners > 0
    ensures |Notify(s, ops, now).history.nodes| == s.history.index + 1 + s.listeners
  {
  }

  /** Calling `subscribe()` once more makes every accepted batch append one
      node more. */
  lemma SubscribeAgainSavesAgain(s: State, ops: seq<Op>, now: Time)
    requires Valid(s) && ShouldSaveHistory(ops, s.history.wip) && s.listeners > 0
    ensures |Notify(Subscribe(s), ops, now).history.nodes| == |Notify(s, ops, now).history.nodes| + 1
  {
  }

  /** The engine's own write comes back as a `set` of `value` to the scratch
      value itself, and is never recorded. */
  lemma EchoIsNotRecorded(s: State, now: Time)
    ensures Notify(s, [Set(["value"], s.history.wip)], now) == s
  {
    assert !ShouldSaveHistory([Set(["value"], s.history.wip)], s.history.wip) by {
      assert IsEcho(Set(["value"], s.history.wip), s.history.wip);
    }
  }

  /** A batch carrying the engine's own write anywhere in it is dropped
      whole, even when it also reports an earlier write the engine made in
      the same tick. */
  lemma BatchWithEchoIsNotRecorded(s: State, ops: seq<Op>, k: nat, now: Time)
    requires k < |ops| && IsEcho(ops[k], s.history.wip)
    ensures Notify(s, ops, now) == s
  {
  }

  /** A `set` of `value` to anything not `===` to the scratch value is recorded. */
  lemma ForeignWriteIsRecorded(s: State, w: JsValue, now: Time)
    requires Valid(s) && s.listeners == 1 && !StrictEq(w, s.history.wip)
    ensures var r := Notify(s, [Set(["value"], w)], now);
      Synced(r) && |r.history.nodes| == s.history.index + 2
  {
    assert ShouldSaveHistory([Set(["value"], w)], s.history.wip);
  }

  /** A batch touching anything outside `value` is not recorded, whatever else
      it contains. */
  lemma OutsideValueIsNotRecorded(s: State, ops: seq<Op>, k: nat, now: Time)
    requires k < |ops| && !UnderValue(ops[k])
    ensures Notify(s, ops, now) == s
  {
  }
}

=== FILE: editor.dfy ===
/** Rewriting the log out of band: `remove` deletes one node and repairs the
    cursor, `replace` overwrites one node's snapshot. */
module Editor {
  import opened Wrappers
  import opened Values
  import opened History
  import opened Navigator

  /** Whether `remove(i)` acts: there is a node at `i` and it is not the only one. */
  predicate Removable(s: State, i: int) {
    0 <= i < |s.history.nodes| && |s.history.nodes| >= 2
  }

  /** The node whose snapshot becomes current when the current node `i` goes:
      the next one, or the previous one when `i` is the last. */
  function Neighbour(s: State, i: int): int {
    if i == |s.history.nodes| - 1 then i - 1 else i + 1
  }

  /** `remove(i)`: nothing (and `undefined`) without a node at `i` or with
      fewer than two nodes. Otherwise: when `i` is current, write the
      neighbour's snapshot back and, when `i` is also last, step the cursor
      back; cut the node out; when `i` lay before a different current node,
      step the cursor back so it keeps naming that node. Returns the node
      removed. */
  function Remove(s: State, i: int): (r: (State, Option<Node>))
    ensures !Removable(s, i) ==> r == (s, None)
    ensures Removable(s, i) ==>
              && r.1 == Some(s.history.nodes[i])
              && |r.0.history.nodes| == |s.history.nodes| - 1
              && (forall j :: 0 <= j < i ==> r.0.history.nodes[j] == s.history.nodes[j])
              && (forall j :: i <= j < |r.0.history.nodes| ==> r.0.history.nodes[j] == s.history.nodes[j + 1])
              && r.0.variant == s.variant && r.0.listeners == s.listeners
    ensures Valid(s) ==> Valid(r.0)
    ensures Valid(s) && Removable(s, i) && i < s.history.index ==>
              r.0.history.index == s.history.index - 1 && r.0.value == s.value && r.0.history.wip == s.history.wip
    ensures Valid(s) && Removable(s, i) && i > s.history.index ==>
              r.0.history.index == s.history.index && r.0.value == s.value && r.0.history.wip == s.history.wip
    ensures Valid(s) && Removable(s, i) && i == s.history.index ==>
              && r.0.value == r.0.history.wip.content
              && Shows(r.0, s.history.nodes[Neighbour(s, i)].snapshot)
              && r.0.history.index == (if i == |s.history.nodes| - 1 then i - 1 else i)
  {
    if !Removable(s, i) then (s, None)
    else
      var node := s.history.nodes[i];
      var isCurrent := s.history.index == i;
      var isLast := i == |s.history.nodes| - 1;
      var s1 :=
        if isCurrent then
          var w := WriteBack(s, SnapshotAt(s.history.nodes, Neighbour(s, i)), true);
          if isLast then w.(history := w.history.(index := w.history.index - 1)) else w
        else s;
      var s2 := s1.(history := s1.history.(nodes := s1.history.nodes[..i] + s1.history.nodes[i + 1..]));
      var s3 :=
        if !isCurrent && s2.history.index > i then s2.(history := s2.history.(index := s2.history.index - 1))
        else s2;
      (s3, Some(node))
  }

  /** After a removal the cursor names the same node as before when another
      node was removed, and the neighbour `remove` picked when the current
      one was; either way a synced state stays synced (for index.ts, unless
      the neighbour's snapshot is nullish). */
  lemma RemoveKeepsCursorOnItsNode(s: State, i: int)
    requires Valid(s) && Removable(s, i)
    ensures var r := Remove(s, i).0;
      i != s.history.index ==> r.history.nodes[r.history.index] == s.history.nodes[s.history.index]
    ensures var r := Remove(s, i).0;
      i == s.history.index ==> r.history.nodes[r.history.index] == s.history.nodes[Neighbour(s, i)]
    ensures Synced(s) && (i != s.history.index || s.variant.Legacy? || !IsNullish(s.history.nodes[Neighbour(s, i)].snapshot)) ==>
              Synced(Remove(s, i).0)
  {
  }

  /** The last remaining node can never be removed. */
  lemma RemoveNeverEmpties(s: State, i: int)
    requires |s.history.nodes| > 0
    ensures |Remove(s, i).0.history.nodes| > 0
  {
  }

  /** `replace(i, v)`: nothing without a node at `i`; otherwise that node gets
      `v` as its snapshot and `now` as its update time, keeping its creation
      time, and when `i` is current `v` is also written through the scratch
      slot into the tracked value, as passed. */
  function Replace(s: State, i: int, v: JsValue, now: Time): (r: State)
    ensures !(0 <= i < |s.history.nodes|) ==> r == s
    ensures 0 <= i < |s.history.nodes| ==>
              && |r.history.nodes| == |s.history.nodes|
              && r.history.index == s.history.index
              && r.history.nodes[i] == Node(v.content, s.history.nodes[i].createdAt, Some(now))
              && (forall j :: 0 <= j < |s.history.nodes| && j != i ==> r.history.nodes[j] == s.history.nodes[j])
              && r.variant == s.variant && r.listeners == s.listeners && r.nextAddr == s.nextAddr
    ensures 0 <= i < |s.history.nodes| && i == s.history.index ==> r.value == v.content && r.history.wip == v
    ensures i != s.history.index ==> r.value == s.value && r.history.wip == s.history.wip
    ensures Valid(s) ==> Valid(r)
    ensures Synced(s) ==> Synced(r)
  {
    if !(0 <= i < |s.history.nodes|) then s
    else
      var node := s.history.nodes[i];
      var s1 := s.(history := s.history.(nodes := s.history.nodes[i := node.(snapshot := v.content, updatedAt := Some(now))]));
      if s.history.index == i then s1.(value := v.content, history := s1.history.(wip := v)) else s1
  }
}

=== FILE: history.dfy ===
/** The history store: the record `proxyWithHistory` closes over, recording a
    change, building a container, and the read-only accessors. */
module History {
  import opened Wrappers
  import opened Values
  import opened Options

  /** A `Date` reading; where it comes from is left to the caller. */
  type Time = int

  /** One recorded state: its snapshot, when it was appended, and when `replace`
      last overwrote it (`None` while it never was). */
  datatype Node = Node(snapshot: Value, createdAt: Time, updatedAt: Option<Time>)

  /** `history`: the scratch slot `wip`, the log, and the cursor (-1 before the
      first recording). */
  datatype Log = Log(wip: JsValue, nodes: seq<Node>, index: int)

  /** Which copy of the engine built the container: history-utility.ts
      (`Legacy`) or the package entry point index.ts (`Published`). */
  datatype Variant = Legacy | Published

  /** The container: the tracked `value`, its `history`, how many listeners
      `subscribe` has registered, and the number of the next object the
      engine's clone allocates (0 is kept for the engine's own constants). */
  datatype State = State(variant: Variant, value: Value, history: Log, listeners: nat, nextAddr: nat)

  /** The cursor names a node. */
  predicate Valid(s: State) {
    0 <= s.history.index < |s.history.nodes|
  }

  /** The tracked value is the snapshot under the cursor. */
  predicate Synced(s: State) {
    Valid(s) && s.value == s.history.nodes[s.history.index].snapshot
  }

  /** Every engine object the scratch slot can hold was allocated before
      `nextAddr`, so the engine's next clone is a new object. */
  predicate AddrsFresh(s: State) {
    s.history.wip.addr.Engine? ==> s.history.wip.addr.n < s.nextAddr
  }

  /** `nodes[i]?.snapshot`: `undefined` when there is no node at `i`. */
  function SnapshotAt(nodes: seq<Node>, i: int): Value {
    if 0 <= i < |nodes| then nodes[i].snapshot else Undefined
  }

  /** Where `Array.prototype.splice(start)` starts cutting: a negative start
      counts from the end, and the result is clamped to the array. */
  function SpliceStart(start: int, len: nat): (k: nat)
    ensures k <= len
    ensures 0 <= start <= len ==> k == start
  {
    if start < 0 then (if len + start < 0 then 0 else len + start)
    else if start > len then len
    else start
  }

  /** `saveHistory`: cut every node after the cursor, append the current value
      with its creation time, and advance the cursor. */
  function SaveHistory(s: State, now: Time): (r: State)
    ensures r == s.(history := r.history) && r.history.wip == s.history.wip
    ensures r.history.index == s.history.index + 1
    ensures |r.history.nodes| > 0 && r.history.nodes[|r.history.nodes| - 1] == Node(s.value, now, None)
    ensures |r.history.nodes| <= |s.history.nodes| + 1
    ensures forall j :: 0 <= j < |r.history.nodes| - 1 ==> r.history.nodes[j] == s.history.nodes[j]
    ensures -1 <= s.history.index < |s.history.nodes| ==>
              |r.history.nodes| == s.history.index + 2 && Synced(r)
  {
    var kept := s.history.nodes[..SpliceStart(s.history.index + 1, |s.history.nodes|)];
    s.(history := s.history.(nodes := kept + [Node(s.value, now, None)], index := s.history.index + 1))
  }

  /** index.ts's `EMPTY_WIP` sentinel: its initial scratch slot, and what it
      stores when a clone comes back nullish. */
  const EmptyWipValue: JsValue := JsValue(EmptyWip, Engine(0))

  /** The scratch slot before any internal write: `undefined` in
      history-utility.ts, the `EMPTY_WIP` symbol in index.ts. */
  function InitialWip(variant: Variant): JsValue {
    match variant
    case Legacy => JsValue(Undefined, Engine(0))
    case Published => EmptyWipValue
  }

  /** Whether this copy skips the subscription for the given argument. */
  predicate Skips(variant: Variant, arg: OptionsArg) {
    match variant
    case Legacy => LegacySkips(arg)
    case Published => PublishedSkips(arg)
  }

  /** `proxyWithHistory(initialValue, options)`: an empty log with the cursor
      at -1, one recording of the initial value, then one subscription unless
      the options skip it. */
  function Create(variant: Variant, initial: Value, now: Time, arg: OptionsArg): (r: State)
    ensures Synced(r) && r.variant == variant && r.value == initial
    ensures r.history.nodes == [Node(initial, now, None)] && r.history.index == 0
    ensures variant.Legacy? ==> r.history.wip.content == Undefined
    ensures variant.Published? ==> r.history.wip.content == EmptyWip
    ensures r.listeners == if Skips(variant, arg) then 0 else 1
    ensures r.history.wip.addr.Engine? && AddrsFresh(r)
  {
    var empty := State(variant, initial, Log(InitialWip(variant), [], -1), 0, 1);
    SaveHistory(empty, now).(listeners := if Skips(variant, arg) then 0 else 1)
  }

  /** `getNode(i)`: `undefined` without a node at `i`, otherwise a copy of the
      node whose snapshot is a deep clone. */
  function GetNode(s: State, i: int): (r: Option<Node>)
    ensures r.Some? <==> 0 <= i < |s.history.nodes|
    ensures r.Some? ==>
              && r.value.createdAt == s.history.nodes[i].createdAt
              && r.value.updatedAt == s.history.nodes[i].updatedAt
              && r.value.snapshot == s.history.nodes[i].snapshot
  {
    if 0 <= i < |s.history.nodes| then
      var node := s.history.nodes[i];
      Some(node.(snapshot := DeepClone(node.snapshot)))
    else None
  }

  /** `getCurrentChangeDate`: the creation time of the node under the cursor,
      `undefined` when the cursor names no node. */
  function GetCurrentChangeDate(s: State): (r: Option<Time>)
    ensures r.Some? <==> Valid(s)
    ensures r.Some? ==> r.value == s.history.nodes[s.history.index].createdAt
  {
    var i := s.history.index;
    if 0 <= i < |s.history.nodes| then Some(s.history.nodes[i].createdAt) else None
  }
}

=== FILE: invariants.dfy ===
/** Whole sessions: any sequence of calls on a container, and the invariants
    every call keeps. */
module Invariants {
  import opened Values
  import opened Options
  import opened History
  import opened Bridge
  import opened Navigator
  import opened Editor

  /** One call an application can make on the container. `Write` is a change
      to the tracked value together with the batch valtio reports for it;
      `Batch` is a batch arriving on its own, such as the echo of an
      internal write. */
  datatype Step =
    | Write(newValue: Value, ops: seq<Op>, at: Time)
    | Batch(ops: seq<Op>, at: Time)
    | Save(at: Time)
    | Listen
    | StepBack
    | StepForward
    | Jump(target: int)
    | Drop(target: int)
    | Overwrite(target: int, snapshot: JsValue, at: Time)

  function Apply(s: State, step: Step): State {
    match step
    case Write(v, ops, at) => Mutate(s, v, ops, at)
    case Batch(ops, at) => Notify(s, ops, at)
    case Save(at) => SaveHistory(s, at)
    case Listen => Subscribe(s)
    case StepBack => Undo(s)
    case StepForward => Redo(s)
    case Jump(i) => GoTo(s, i)
    case Drop(i) => Remove(s, i).0
    case Overwrite(i, v, at) => Replace(s, i, v, at)
  }

  function Run(s: State, steps: seq<Step>): State
    decreases |steps|
  {
    if steps == [] then s else Run(Apply(s, steps[0]), steps[1..])
  }

  /** Every call keeps the cursor on a node. */
  lemma ApplyKeepsValid(s: State, step: Step)
    requires Valid(s)
    ensures Valid(Apply(s, step))
  {
  }

  /** `0 <= index < nodes.length` after every call of every session that
      starts from construction, in both copies. */
  lemma {:induction false} SessionKeepsValid(variant: Variant, initial: Value, now: Time, arg: OptionsArg, steps: seq<Step>)
    ensures Valid(Run(Create(variant, initial, now, arg), steps))
  {
    RunKeepsValid(Create(variant, initial, now, arg), steps);
  }

  lemma {:induction false} RunKeepsValid(s: State, steps: seq<Step>)
    requires Valid(s)
    ensures Valid(Run(s, steps))
    decreases |steps|
  {
    if steps != [] {
      ApplyKeepsValid(s, steps[0]);
      RunKeepsValid(Apply(s, steps[0]), steps[1..]);
    }
  }

  /** The calls that keep the tracked value on the snapshot under the cursor
      in history-utility.ts: everything except a write the listeners do not
      record. */
  predicate KeepsSync(s: State, step: Step) {
    step.Write? ==> s.listeners > 0 && ShouldSaveHistory(step.ops, s.history.wip)
  }

  /** A session whose every write is recorded. */
  predicate Recorded(s: State, steps: seq<Step>)
    decreases |steps|
  {
    steps == [] || (KeepsSync(s, steps[0]) && Recorded(Apply(s, steps[0]), steps[1..]))
  }

  lemma ApplyKeepsSynced(s: State, step: Step)
    requires Synced(s) && s.variant.Legacy? && KeepsSync(s, step)
    ensures Synced(Apply(s, step)) && Apply(s, step).variant.Legacy?
  {
    match step
    case Drop(i) =>
      if Removable(s, i) {
        RemoveKeepsCursorOnItsNode(s, i);
      }
    case StepBack => LegacyNavigationStaysSynced(s, 0);
    case StepForward => LegacyNavigationStaysSynced(s, 0);
    case _ =>
  }

  /** In history-utility.ts the tracked value equals the snapshot under the
      cursor after every call of a session whose writes are all recorded. */
  lemma {:induction false} RunKeepsSynced(s: State, steps: seq<Step>)
    requires Synced(s) && s.variant.Legacy? && Recorded(s, steps)
    ensures Synced(Run(s, steps))
    decreases |steps|
  {
    if steps != [] {
      ApplyKeepsSynced(s, steps[0]);
      RunKeepsSynced(Apply(s, steps[0]), steps[1..]);
    }
  }

  /** The calls that move the engine's own clone into the tracked value. */
  predicate InternalWrite(step: Step) {
    step.StepBack? || step.StepForward? || step.Jump? || step.Drop?
  }

  /** The calls that keep the engine's allocation fresh: all of them, as long
      as what `replace` is handed is not an engine object yet to be
      allocated. */
  predicate KeepsFresh(s: State, step: Step) {
    step.Overwrite? && step.snapshot.addr.Engine? ==> step.snapshot.addr.n < s.nextAddr
  }

  /** Every call keeps the scratch slot's engine objects below `nextAddr`. */
  lemma ApplyKeepsFresh(s: State, step: Step)
    requires AddrsFresh(s) && KeepsFresh(s, step)
    ensures AddrsFresh(Apply(s, step))
  {
  }

  /** A session from construction whose `replace` calls pass existing objects
      keeps the engine's allocation fresh throughout: every clone an internal
      write makes is a new object (`Navigator.WriteBackIsNew`). */
  lemma {:induction false} RunKeepsFresh(s: State, steps: seq<Step>)
    requires AddrsFresh(s)
    requires forall k :: 0 <= k < |steps| ==> steps[k].Overwrite? ==> steps[k].snapshot.addr.App?
    ensures AddrsFresh(Run(s, steps))
    decreases |steps|
  {
    if steps != [] {
      ApplyKeepsFresh(s, steps[0]);
      RunKeepsFresh(Apply(s, steps[0]), steps[1..]);
    }
  }

  /** Why the filter compares by `===`: once `undo`, `redo`, `goTo` or
      `remove` has left an engine object in the scratch slot, whatever the
      slot held before (a `replace` may have put the caller's object there), a
      `set` of `value` to an object the application made is never taken for
      the echo and is recorded as one node right after the cursor. */
  lemma AppObjectWriteIsRecorded(s: State, step: Step, w: JsValue, now: Time)
    requires Valid(s) && s.listeners == 1 && InternalWrite(step)
    requires Apply(s, step).history.wip.addr.Engine?
    requires w.addr.App? && IsCopied(w.content)
    ensures var e := Apply(s, step);
      var r := Notify(e, [Set(["value"], w)], now);
      && Synced(r) && r.value == e.value
      && |r.history.nodes| == e.history.index + 2
      && r.history.nodes[..e.history.index + 1] == e.history.nodes[..e.history.index + 1]
  {
    var e := Apply(s, step);
    assert Valid(e) && e.listeners == 1;
    EngineNeverMatchesAppObject(e.history.wip, w);
    assert ShouldSaveHistory([Set(["value"], w)], e.history.wip);
    var r := Notify(e, [Set(["value"], w)], now);
    assert r.history.nodes[..e.history.index + 1] == e.history.nodes[..e.history.index + 1];
  }

  /** When the internal write happens, the scratch slot holds an engine object
      afterwards, whatever it held before: an enabled `undo` or `redo`, a
      `goTo` to an existing node, and the removal of the current node all
      write a fresh clone (or index.ts's sentinel). */
  lemma ActingStepLeavesEngineObject(s: State, step: Step)
    requires Valid(s) && InternalWrite(step)
    requires match step
      case StepBack => CanUndo(s)
      case StepForward => CanRedo(s)
      case Jump(i) => 0 <= i < |s.history.nodes|
      case Drop(i) => Removable(s, i) && i == s.history.index
      case _ => true
    ensures Apply(s, step).history.wip.addr.Engine?
  {
  }
}

=== FILE: navigator.dfy ===
/** Moving the cursor: `canUndo`/`canRedo`, `undo`, `redo` and `goTo`, each of
    which writes a clone of the target snapshot back through the scratch slot. */
module Navigator {
  import opened Values
  import opened History

  /** `canUndo()`: the cursor is past the first node; in a valid state, a
      node lies just before it. */
  function CanUndo(s: State): (b: bool)
    ensures Valid(s) ==> (b <==> 0 <= s.history.index - 1 < |s.history.nodes|)
  {
    s.history.index > 0
  }

  /** `canRedo()`: the cursor is before the last node; in a valid state, a
      node lies just after it. */
  function CanRedo(s: State): (b: bool)
    ensures Valid(s) ==> (b <==> 0 <= s.history.index + 1 < |s.history.nodes|)
  {
    s.history.index < |s.history.nodes| - 1
  }

  /** What `undo`, `redo` and `remove` keep in the scratch slot after cloning:
      history-utility.ts keeps the clone, index.ts replaces a nullish clone by
      its sentinel (`?? EMPTY_WIP`). */
  function Settle(variant: Variant, cloned: JsValue): (w: JsValue)
    ensures variant.Legacy? || !IsNullish(cloned.content) ==> w == cloned
    ensures variant.Published? && IsNullish(cloned.content) ==> w.content == EmptyWip
  {
    if variant.Published? && IsNullish(cloned.content) then EmptyWipValue else cloned
  }

  /** The tracked value after an internal write of `snap` that goes through
      `Settle`: the snapshot, unless index.ts left its sentinel there. */
  predicate Shows(s: State, snap: Value) {
    if s.variant.Published? && IsNullish(snap) then s.value == EmptyWip else s.value == snap
  }

  /** An internal write: clone `snap` into a fresh object, store it in the
      scratch slot (settled when `fallback` is set), then assign the tracked
      value from the slot. */
  function WriteBack(s: State, snap: Value, fallback: bool): (r: State)
    ensures r.history.nodes == s.history.nodes && r.history.index == s.history.index
    ensures r.variant == s.variant && r.listeners == s.listeners && r.nextAddr == s.nextAddr + 1
    ensures r.value == r.history.wip.content
    ensures fallback ==> Shows(r, snap)
    ensures !fallback ==> r.value == snap
    ensures IsCopied(snap) ==> Identity(r.history.wip) == Allocated(Engine(s.nextAddr))
    ensures r.history.wip.addr.Engine? && AddrsFresh(r)
  {
    var cloned := CloneAt(snap, s.nextAddr);
    var wip := if fallback then Settle(s.variant, cloned) else cloned;
    s.(value := wip.content, history := s.history.(wip := wip), nextAddr := s.nextAddr + 1)
  }

  /** The object an internal write puts in the scratch slot is new: it is
      never `===` to the object the slot held before. */
  lemma WriteBackIsNew(s: State, snap: Value, fallback: bool)
    requires AddrsFresh(s) && IsCopied(snap)
    ensures !StrictEq(WriteBack(s, snap, fallback).history.wip, s.history.wip)
  {
    if !IsCopied(s.history.wip.content) {
    } else {
      CloneIsFresh(s.history.wip, s.nextAddr);
    }
  }

  /** `undo`: when possible, step the cursor back and write that node's
      snapshot back; otherwise nothing. */
  function Undo(s: State): (r: State)
    ensures !CanUndo(s) ==> r == s
    ensures CanUndo(s) ==>
              && r.history.nodes == s.history.nodes
              && r.history.index == s.history.index - 1
              && r.value == r.history.wip.content
              && r.variant == s.variant && r.listeners == s.listeners
    ensures Valid(s) ==> Valid(r)
    ensures Valid(s) && CanUndo(s) ==> Shows(r, s.history.nodes[s.history.index - 1].snapshot)
  {
    if CanUndo(s) then
      var i := s.history.index - 1;
      WriteBack(s.(history := s.history.(index := i)), SnapshotAt(s.history.nodes, i), true)
    else s
  }

  /** `redo`: when possible, step the cursor forward and write that node's
      snapshot back; otherwise nothing. */
  function Redo(s: State): (r: State)
    ensures !CanRedo(s) ==> r == s
    ensures CanRedo(s) ==>
              && r.history.nodes == s.history.nodes
              && r.history.index == s.history.index + 1
              && r.value == r.history.wip.content
              && r.variant == s.variant && r.listeners == s.listeners
    ensures Valid(s) ==> Valid(r)
    ensures Valid(s) && CanRedo(s) ==> Shows(r, s.history.nodes[s.history.index + 1].snapshot)
  {
    if CanRedo(s) then
      var i := s.history.index + 1;
      WriteBack(s.(history := s.history.(index := i)), SnapshotAt(s.history.nodes, i), true)
    else s
  }

  /** `goTo(i)`: without a node at `i` nothing happens; otherwise that node's
      snapshot is written back, with no sentinel fallback in either copy, and
      the cursor moves to `i`. */
  function GoTo(s: State, i: int): (r: State)
    ensures !(0 <= i < |s.history.nodes|) ==> r == s
    ensures 0 <= i < |s.history.nodes| ==>
              && r.history.nodes == s.history.nodes
              && r.history.index == i
              && r.value == r.history.wip.content
              && Synced(r)
              && r.variant == s.variant && r.listeners == s.listeners
    ensures Valid(s) ==> Valid(r)
  {
    if 0 <= i < |s.history.nodes| then
      var w := WriteBack(s, s.history.nodes[i].snapshot, false);
      w.(history := w.history.(index := i))
    else s
  }

  /** `undo` acts exactly when `canUndo()` holds, and `redo` exactly when
      `canRedo()` holds; otherwise calling them any number of times is
      harmless. */
  lemma NavigationActsIffEnabled(s: State)
    ensures Undo(s) != s <==> CanUndo(s)
    ensures Redo(s) != s <==> CanRedo(s)
    ensures !CanUndo(s) ==> Undo(Undo(s)) == s
    ensures !CanRedo(s) ==> Redo(Redo(s)) == s
  {
  }

  /** In a valid state undo is enabled exactly when a node lies just before
      the cursor, and redo exactly when one lies just after it. */
  lemma EnabledMeansNeighbour(s: State)
    requires Valid(s)
    ensures CanUndo(s) <==> GetNode(s, s.history.index - 1).Some?
    ensures CanRedo(s) <==> GetNode(s, s.history.index + 1).Some?
  {
  }

  /** `undo(); redo()` returns to the same node and shows its snapshot again;
      from a synced state showing a non-nullish snapshot (always, in
      history-utility.ts) the tracked value is the one before the undo. */
  lemma UndoThenRedo(s: State)
    requires Valid(s) && CanUndo(s)
    ensures var r := Redo(Undo(s));
      && r.history.nodes == s.history.nodes
      && r.history.index == s.history.index
      && Shows(r, s.history.nodes[s.history.index].snapshot)
    ensures Synced(s) && (s.variant.Legacy? || !IsNullish(s.value)) ==> Redo(Undo(s)).value == s.value
  {
    var u := Undo(s);
    assert CanRedo(u);
  }

  /** `redo(); undo()` mirrors `UndoThenRedo`. */
  lemma RedoThenUndo(s: State)
    requires Valid(s) && CanRedo(s)
    ensures var r := Undo(Redo(s));
      && r.history.nodes == s.history.nodes
      && r.history.index == s.history.index
      && Shows(r, s.history.nodes[s.history.index].snapshot)
    ensures Synced(s) && (s.variant.Legacy? || !IsNullish(s.value)) ==> Undo(Redo(s)).value == s.value
  {
    var r := Redo(s);
    assert CanUndo(r);
  }

  /** history-utility.ts keeps the tracked value on the snapshot under the
      cursor across every navigation step. */
  lemma LegacyNavigationStaysSynced(s: State, i: int)
    requires Valid(s) && s.variant.Legacy?
    ensures CanUndo(s) ==> Synced(Undo(s))
    ensures CanRedo(s) ==> Synced(Redo(s))
    ensures 0 <= i < |s.history.nodes| ==> Synced(GoTo(s, i))
  {
  }
}

=== FILE: options.dfy ===
/** The second argument of `proxyWithHistory` and how each copy of the engine
    reads it to decide whether to subscribe at construction. */
module Options {
  import opened Wrappers

  /** The `skipSubscribe` field of an options object: missing, present but
      `undefined`, or a boolean. */
  datatype SkipField = SkipAbsent | SkipUndefined | SkipGiven(b: bool)

  /** What a caller may pass: nothing, the deprecated boolean form (accepted by
      the published entry point), or an options object. */
  datatype OptionsArg = NoOptions | FlagOption(flag: bool) | ObjectOption(skipSubscribe: SkipField)

  /** Normalised options; `None` means the field holds `undefined`. */
  datatype HistoryOptions = HistoryOptions(skipSubscribe: Option<bool>)

  const Defaults: HistoryOptions := HistoryOptions(Some(false))

  /** `normalizeOptions`: a boolean becomes `{skipSubscribe: b}`, a missing
      argument the defaults, an object the defaults overridden by the fields it
      carries (a field explicitly set to `undefined` overrides too). */
  function NormalizeOptions(arg: OptionsArg): (r: HistoryOptions)
    ensures arg.FlagOption? ==> r.skipSubscribe == Some(arg.flag)
    ensures arg == NoOptions || arg == ObjectOption(SkipAbsent) ==> r == Defaults
    ensures arg.ObjectOption? && arg.skipSubscribe.SkipGiven? ==> r.skipSubscribe == Some(arg.skipSubscribe.b)
    ensures r.skipSubscribe == None <==> arg == ObjectOption(SkipUndefined)
  {
    match arg
    case FlagOption(b) => HistoryOptions(Some(b))
    case NoOptions => Defaults
    case ObjectOption(field) =>
      match field
      case SkipAbsent => Defaults
      case SkipUndefined => HistoryOptions(None)
      case SkipGiven(b) => HistoryOptions(Some(b))
  }

  /** history-utility.ts skips the subscription when `options?.skipSubscribe`
      is truthy; a boolean argument has no such field there. */
  predicate LegacySkips(arg: OptionsArg) {
    arg == ObjectOption(SkipGiven(true))
  }

  /** index.ts skips the subscription when the normalised field is truthy. */
  predicate PublishedSkips(arg: OptionsArg) {
    NormalizeOptions(arg).skipSubscribe == Some(true)
  }

  /** Both copies agree on every argument except the boolean form, which only
      the published copy honours. */
  lemma SkipDecisionsAgree(arg: OptionsArg)
    ensures !arg.FlagOption? ==> (LegacySkips(arg) <==> PublishedSkips(arg))
    ensures arg.FlagOption? ==> !LegacySkips(arg) && (PublishedSkips(arg) <==> arg.flag)
  {
  }
}

=== FILE: published.dfy ===
/** What only the package entry point index.ts has: the derived getters, and
    the consequences of its `EMPTY_WIP` sentinel. */
module Published {
  import opened Wrappers
  import opened Values
  import opened Options
  import opened History
  import opened Bridge
  import opened Navigator
  import opened Editor

  /** `isUndoEnabled`: the getter form of `canUndo()`. */
  function IsUndoEnabled(s: State): (b: bool)
    ensures b == CanUndo(s)
  {
    s.history.index > 0
  }

  /** `isRedoEnabled`: the getter form of `canRedo()`. */
  function IsRedoEnabled(s: State): (b: bool)
    ensures b == CanRedo(s)
  {
    s.history.index < |s.history.nodes| - 1
  }

  /** `currentIndex`: the cursor, which names one of the nodes exactly in a
      valid state. */
  function CurrentIndex(s: State): (i: int)
    ensures i == s.history.index
    ensures Valid(s) <==> 0 <= i < |s.history.nodes|
  {
    s.history.index
  }

  /** `historyNodeCount`: the length of the log, never zero in a valid
      state. */
  function HistoryNodeCount(s: State): (n: nat)
    ensures n == |s.history.nodes|
    ensures Valid(s) ==> n > 0 && s.history.index < n
  {
    |s.history.nodes|
  }

  /** `currentChangeDate`: the getter form of `getCurrentChangeDate()`. */
  function CurrentChangeDate(s: State): (r: Option<Time>)
    ensures r == GetCurrentChangeDate(s)
  {
    var i := s.history.index;
    if 0 <= i < |s.history.nodes| then Some(s.history.nodes[i].createdAt) else None
  }

  /** The getters agree with the methods they replace, in every state: the
      enabled flags with `canUndo()`/`canRedo()`, the change date with
      `getCurrentChangeDate()`; and in a valid state the change date is that
      of the node at `currentIndex`, one of `historyNodeCount` nodes. */
  lemma GettersAgree(s: State)
    ensures IsUndoEnabled(s) == CanUndo(s)
    ensures IsRedoEnabled(s) == CanRedo(s)
    ensures CurrentChangeDate(s) == GetCurrentChangeDate(s)
    ensures Valid(s) ==>
              && 0 <= CurrentIndex(s) < HistoryNodeCount(s)
              && CurrentChangeDate(s) == Some(s.history.nodes[CurrentIndex(s)].createdAt)
    ensures !Valid(s) ==> CurrentChangeDate(s) == None
  {
  }

  /** Why the sentinel exists: right after construction on a defined value, a
      write of `undefined` into the tracked value is recorded by index.ts, while
      history-utility.ts, whose empty scratch slot is `undefined`, takes it
      for its own echo and drops it. */
  lemma SentinelAdmitsUndefinedWrite(initial: Value, now: Time, arg: OptionsArg, w: JsValue)
    requires initial != Undefined && w.content == Undefined && !PublishedSkips(arg) && !LegacySkips(arg)
    ensures var p := Create(Published, initial, now, arg);
      |Mutate(p, Undefined, [Set(["value"], w)], now).history.nodes| == 2
    ensures var l := Create(Legacy, initial, now, arg);
      Mutate(l, Undefined, [Set(["value"], w)], now).history == l.history
  {
    var p := Create(Published, initial, now, arg);
    assert ShouldSaveHistory([Set(["value"], w)], p.history.wip);
    var l := Create(Legacy, initial, now, arg);
    assert !ShouldSaveHistory([Set(["value"], w)], l.history.wip) by {
      assert IsEcho(Set(["value"], w), l.history.wip);
    }
  }

  /** `undo`, `redo` and `remove` in index.ts assign the tracked value from
      the scratch slot after the `?? EMPTY_WIP` fallback, so stepping onto a
      `null` or `undefined` snapshot leaves the sentinel symbol itself in
      `value`, and the value no longer matches the node under the cursor. */
  lemma NullishStepLeavesSentinel(s: State)
    requires Valid(s) && s.variant.Published?
    ensures CanUndo(s) && IsNullish(s.history.nodes[s.history.index - 1].snapshot) ==>
              Undo(s).value == EmptyWip && !Synced(Undo(s))
    ensures CanRedo(s) && IsNullish(s.history.nodes[s.history.index + 1].snapshot) ==>
              Redo(s).value == EmptyWip && !Synced(Redo(s))
    ensures Removable(s, s.history.index) && IsNullish(s.history.nodes[Neighbour(s, s.history.index)].snapshot) ==>
              Remove(s, s.history.index).0.value == EmptyWip && !Synced(Remove(s, s.history.index).0)
  {
    if Removable(s, s.history.index) && IsNullish(s.history.nodes[Neighbour(s, s.history.index)].snapshot) {
      RemoveKeepsCursorOnItsNode(s, s.history.index);
    }
  }

  /** The other side of the sentinel: after an `undo` onto a `null` snapshot
      the scratch slot holds the sentinel, so when the application then sets
      the tracked value to `null` the reported write is not taken for the echo
      and index.ts records a node holding `null`, where history-utility.ts,
      whose slot holds the cloned `null`, drops it. */
  lemma NullWriteAfterNullishUndo(s: State, w: JsValue, now: Time)
    requires Valid(s) && CanUndo(s) && s.listeners == 1
    requires s.history.nodes[s.history.index - 1].snapshot == Null && w.content == Null
    ensures var r := Mutate(Undo(s), Null, [Set(["value"], w)], now);
      s.variant.Published? ==>
        && |r.history.nodes| == s.history.index + 1
        && r.history.index == s.history.index
        && r.history.nodes[s.history.index].snapshot == Null
        && r.value == Null
    ensures s.variant.Legacy? ==>
              Mutate(Undo(s), Null, [Set(["value"], w)], now) == Undo(s)
  {
    var u := Undo(s);
    if s.variant.Published? {
      ForeignWriteIsRecorded(u.(value := Null), w, now);
    } else {
      BatchWithEchoIsNotRecorded(u, [Set(["value"], w)], 0, now);
    }
  }

  /** `goTo` and `replace` have no fallback in index.ts: a nullish snapshot
      reaches the tracked value as it is. */
  lemma GoToAndReplaceHaveNoFallback(s: State, i: int, v: JsValue, now: Time)
    requires s.variant.Published? && 0 <= i < |s.history.nodes| && IsNullish(v.content)
    ensures IsNullish(s.history.nodes[i].snapshot) ==>
              GoTo(s, i).value == s.history.nodes[i].snapshot && Synced(GoTo(s, i))
    ensures Valid(s) ==> Replace(s, s.history.index, v, now).value == v.content
  {
  }

  /** The same steps on a container that starts at `null`: after one
      recorded change, `undo` shows `null` again in history-utility.ts but
      the sentinel in index.ts. */
  lemma UndoToNullInitialValue(now: Time)
    ensures var op := [Set(["value"], JsValue(Num(1), App(0)))];
      && Undo(Mutate(Create(Legacy, Null, now, NoOptions), Num(1), op, now)).value == Null
      && Undo(Mutate(Create(Published, Null, now, NoOptions), Num(1), op, now)).value == EmptyWip
  {
    UndoOneChange(Create(Legacy, Null, now, NoOptions), now);
    UndoOneChange(Create(Published, Null, now, NoOptions), now);
  }

  /** One recorded change on a freshly built container, then `undo`. */
  lemma UndoOneChange(s: State, now: Time)
    requires s.history.nodes == [Node(Null, now, None)] && s.history.index == 0 && s.listeners == 1
    requires !s.history.wip.content.Num?
    ensures var op := [Set(["value"], JsValue(Num(1), App(0)))];
      Shows(Undo(Mutate(s, Num(1), op, now)), Null)
  {
    var op := [Set(["value"], JsValue(Num(1), App(0)))];
    assert ShouldSaveHistory(op, s.history.wip);
    MutationRecords(s, Num(1), op, now);
  }
}

=== FILE: scenarios.dfy ===
/** The sessions the repository's tests walk through, on a container tracking
    `{count: n}` built by history-utility.ts. Each test is stated on the
    concrete session and proved through a lemma about any state of the same
    shape. */
module Scenarios {
  import opened Wrappers
  import opened Values
  import opened Options
  import opened History
  import opened Bridge
  import opened Navigator
  import opened Editor

  /** `{count: n}` */
  function Counter(n: int): Value {
    Obj([Prop("count", Num(n))])
  }

  function Counters(ns: seq<int>): (r: seq<Value>)
    ensures |r| == |ns|
    ensures forall k :: 0 <= k < |ns| ==> r[k] == Counter(ns[k])
  {
    if ns == [] then [] else [Counter(ns[0])] + Counters(ns[1..])
  }

  /** The snapshots of a log, in order. */
  function Snapshots(nodes: seq<Node>): (r: seq<Value>)
    ensures |r| == |nodes|
    ensures forall k :: 0 <= k < |nodes| ==> r[k] == nodes[k].snapshot
  {
    if nodes == [] then [] else [nodes[0].snapshot] + Snapshots(nodes[1..])
  }

  /** The log holds exactly the counts `ns`, in order. */
  predicate HoldsCounts(nodes: seq<Node>, ns: seq<int>) {
    |nodes| == |ns| && forall k :: 0 <= k < |ns| ==> nodes[k].snapshot == Counter(ns[k])
  }

  /** `history.nodes.map(mapNumbers)` in the tests is the list of counts. */
  lemma HoldsCountsMeansSnapshots(nodes: seq<Node>, ns: seq<int>)
    requires HoldsCounts(nodes, ns)
    ensures Snapshots(nodes) == Counters(ns)
  {
  }

  // ---------------------------------------------------------------------
  // Sessions

  /** `state.value.count += 1` bringing the count to `n`, and the batch that
      reports it. */
  function Increment(s: State, n: int, t: Time): State {
    Mutate(s, Counter(n), [Set(["value", "count"], JsValue(Num(n), App(0)))], t)
  }

  /** `proxyWithHistory({count: 0})` followed by `n` increments, each one
      awaited. */
  function CountTo(n: nat, t: Time): State {
    if n == 0 then Create(Legacy, Counter(0), t, NoOptions) else Increment(CountTo(n - 1, t), n, t)
  }

  /** `undo()` followed by the batch its write triggers. */
  function UndoAwaited(s: State, t: Time): State {
    var u := Undo(s);
    Notify(u, [Set(["value"], u.history.wip)], t)
  }

  /** `redo()` followed by the batch its write triggers. */
  function RedoAwaited(s: State, t: Time): State {
    var r := Redo(s);
    Notify(r, [Set(["value"], r.history.wip)], t)
  }

  /** `n` awaited undos in a row. */
  function UndoTimes(s: State, n: nat, t: Time): State
    decreases n
  {
    if n == 0 then s else UndoAwaited(UndoTimes(s, n - 1, t), t)
  }

  /** `n` awaited redos in a row. */
  function RedoTimes(s: State, n: nat, t: Time): State
    decreases n
  {
    if n == 0 then s else RedoAwaited(RedoTimes(s, n - 1, t), t)
  }

  /** Count to five, then undo three times. */
  function FiveBackToTwo(t: Time): State {
    UndoTimes(CountTo(5, t), 3, t)
  }

  /** `remove(i)` followed by the batch its write triggers, when it writes. */
  function RemoveAwaited(s: State, i: int, t: Time): State {
    var r := Remove(s, i).0;
    if Removable(s, i) && i == s.history.index then Notify(r, [Set(["value"], r.history.wip)], t) else r
  }

  /** `replace(i, v)` followed by the batch its write triggers, when it writes. */
  function ReplaceAwaited(s: State, i: int, v: JsValue, t: Time): State {
    var r := Replace(s, i, v, t);
    if 0 <= i < |s.history.nodes| && i == s.history.index then Notify(r, [Set(["value"], r.history.wip)], t) else r
  }

  /** `goTo(i)` followed by the batch its write triggers, when it writes. */
  function GoToAwaited(s: State, i: int, t: Time): State {
    var g := GoTo(s, i);
    if 0 <= i < |s.history.nodes| then Notify(g, [Set(["value"], g.history.wip)], t) else g
  }

  // ---------------------------------------------------------------------
  // What each step does

  /** The state after counting to `n`: one node per count, the cursor on the
      last, the one listener of construction, and a scratch slot never
      written. */
  predicate CountedTo(s: State, n: nat) {
    && s.variant == Legacy && s.listeners == 1 && s.history.wip == JsValue(Undefined, Engine(0))
    && s.value == Counter(n) && s.history.index == n
    && |s.history.nodes| == n + 1
    && forall k :: 0 <= k <= n ==> s.history.nodes[k].snapshot == Counter(k)
  }

  /** An increment at the end of the log, with a scratch value that is not a
      number, is recorded as one more node. */
  lemma IncrementRecords(p: State, n: int, t: Time)
    requires Valid(p) && p.history.index == |p.history.nodes| - 1 && p.listeners == 1
    requires !p.history.wip.content.Num?
    ensures var s := Increment(p, n, t);
      && s.variant == p.variant && s.listeners == 1 && s.history.wip == p.history.wip
      && s.value == Counter(n) && s.history.index == p.history.index + 1
      && s.history.nodes == p.history.nodes + [Node(Counter(n), t, None)]
  {
    var op := Set(["value", "count"], JsValue(Num(n), App(0)));
    assert !IsEcho(op, p.history.wip);
    assert ShouldSaveHistory([op], p.history.wip);
    MutationRecords(p, Counter(n), [op], t);
    assert p.history.nodes[..p.history.index + 1] == p.history.nodes;
  }

  /** One more increment after counting to `n - 1` counts to `n`. */
  lemma CountStep(p: State, n: nat, t: Time)
    requires n > 0 && CountedTo(p, n - 1)
    ensures CountedTo(Increment(p, n, t), n)
  {
    IncrementRecords(p, n, t);
    var s := Increment(p, n, t);
    forall k | 0 <= k <= n
      ensures s.history.nodes[k].snapshot == Counter(k)
    {
      if k < n {
        assert s.history.nodes[k] == p.history.nodes[k];
      }
    }
  }

  /** Counting up to `n` records one node per count and leaves the cursor on
      the last. */
  lemma {:induction false} CountToShape(n: nat, t: Time)
    ensures CountedTo(CountTo(n, t), n)
  {
    if n > 0 {
      CountToShape(n - 1, t);
      CountStep(CountTo(n - 1, t), n, t);
    }
  }

  /** The log after counting to five is the list 0 to 5. */
  lemma SixCounts(s: State)
    requires CountedTo(s, 5)
    ensures HoldsCounts(s.history.nodes, [0, 1, 2, 3, 4, 5])
  {
  }

  /** The log after counting to three is the list 0 to 3. */
  lemma FourCounts(s: State)
    requires CountedTo(s, 3)
    ensures HoldsCounts(s.history.nodes, [0, 1, 2, 3])
  {
  }

  /** Undoing shows the previous snapshot, and the echo of that write
      changes nothing. */
  lemma UndoAwaitedShows(s: State, t: Time)
    requires Valid(s) && CanUndo(s) && s.variant.Legacy?
    ensures var r := UndoAwaited(s, t);
      && r.history.nodes == s.history.nodes
      && r.history.index == s.history.index - 1
      && r.value == s.history.nodes[s.history.index - 1].snapshot
      && r.value == r.history.wip.content
      && r.listeners == s.listeners && r.variant == s.variant
  {
    EchoIsNotRecorded(Undo(s), t);
  }

  /** Redoing shows the next snapshot, and the echo of that write changes
      nothing. */
  lemma RedoAwaitedShows(s: State, t: Time)
    requires Valid(s) && CanRedo(s) && s.variant.Legacy?
    ensures var r := RedoAwaited(s, t);
      && r.history.nodes == s.history.nodes
      && r.history.index == s.history.index + 1
      && r.value == s.history.nodes[s.history.index + 1].snapshot
      && r.value == r.history.wip.content
      && r.listeners == s.listeners && r.variant == s.variant
  {
    EchoIsNotRecorded(Redo(s), t);
  }

  /** `n` plain `undo()` calls in a row, with no batch in between. */
  function UndoSteps(s: State, n: nat): State
    decreases n
  {
    if n == 0 then s else Undo(UndoSteps(s, n - 1))
  }

  /** Awaiting each `undo()` changes nothing, because the batch that follows
      is the echo of its own write. */
  lemma {:induction false} AwaitedUndosAreUndos(s: State, n: nat, t: Time)
    ensures UndoTimes(s, n, t) == UndoSteps(s, n)
    decreases n
  {
    if n > 0 {
      AwaitedUndosAreUndos(s, n - 1, t);
      EchoIsNotRecorded(Undo(UndoSteps(s, n - 1)), t);
    }
  }

  /** `n` `undo()` calls move the cursor back `n` nodes over the unchanged log
      and show the snapshot there. */
  lemma {:induction false} UndoStepsShow(s: State, n: nat)
    requires Valid(s) && n <= s.history.index && s.variant.Legacy?
    ensures var r := UndoSteps(s, n);
      && r.history.nodes == s.history.nodes
      && r.history.index == s.history.index - n
      && r.listeners == s.listeners && r.variant == s.variant
      && (n > 0 ==> r.value == s.history.nodes[r.history.index].snapshot && r.value == r.history.wip.content)
    decreases n
  {
    if n > 0 {
      UndoStepsShow(s, n - 1);
    }
  }

  /** `n` awaited undos move the cursor back `n` nodes over the unchanged log
      and show the snapshot there. */
  lemma UndoTimesShows(s: State, n: nat, t: Time)
    requires Valid(s) && n <= s.history.index && s.variant.Legacy?
    ensures var r := UndoTimes(s, n, t);
      && r.history.nodes == s.history.nodes
      && r.history.index == s.history.index - n
      && r.listeners == s.listeners && r.variant == s.variant
      && (n > 0 ==> r.value == s.history.nodes[r.history.index].snapshot && r.value == r.history.wip.content)
  {
    AwaitedUndosAreUndos(s, n, t);
    UndoStepsShow(s, n);
  }

  /** `n` plain `redo()` calls in a row, with no batch in between. */
  function RedoSteps(s: State, n: nat): State
    decreases n
  {
    if n == 0 then s else Redo(RedoSteps(s, n - 1))
  }

  /** Awaiting each `redo()` changes nothing, because the batch that follows
      is the echo of its own write. */
  lemma {:induction false} AwaitedRedosAreRedos(s: State, n: nat, t: Time)
    ensures RedoTimes(s, n, t) == RedoSteps(s, n)
    decreases n
  {
    if n > 0 {
      AwaitedRedosAreRedos(s, n - 1, t);
      EchoIsNotRecorded(Redo(RedoSteps(s, n - 1)), t);
    }
  }

  /** `n` `redo()` calls move the cursor forward `n` nodes over the unchanged log
      and show the snapshot there. */
  lemma {:induction false} RedoStepsShow(s: State, n: nat)
    requires Valid(s) && s.history.index + n < |s.history.nodes| && s.variant.Legacy?
    ensures var r := RedoSteps(s, n);
      && r.history.nodes == s.history.nodes
      && r.history.index == s.history.index + n
      && r.listeners == s.listeners && r.variant == s.variant
      && (n > 0 ==> r.value == s.history.nodes[r.history.index].snapshot && r.value == r.history.wip.content)
    decreases n
  {
    if n > 0 {
      RedoStepsShow(s, n - 1);
    }
  }

  /** `n` awaited redos move the cursor forward `n` nodes over the unchanged log
      and show the snapshot there. */
  lemma RedoTimesShows(s: State, n: nat, t: Time)
    requires Valid(s) && s.history.index + n < |s.history.nodes| && s.variant.Legacy?
    ensures var r := RedoTimes(s, n, t);
      && r.history.nodes == s.history.nodes
      && r.history.index == s.history.index + n
      && r.listeners == s.listeners && r.variant == s.variant
      && (n > 0 ==> r.value == s.history.nodes[r.history.index].snapshot && r.value == r.history.wip.content)
  {
    AwaitedRedosAreRedos(s, n, t);
    RedoStepsShow(s, n);
  }

  /** A removal of the current node is followed by its own echo, which
      records nothing. */
  lemma RemoveCurrentEchoes(s: State, t: Time)
    requires Removable(s, s.history.index)
    ensures RemoveAwaited(s, s.history.index, t) == Remove(s, s.history.index).0
  {
    EchoIsNotRecorded(Remove(s, s.history.index).0, t);
  }

  /** A replacement of the current node is followed by its own echo, which
      records nothing. */
  lemma ReplaceCurrentEchoes(s: State, v: JsValue, t: Time)
    requires 0 <= s.history.index < |s.history.nodes|
    ensures ReplaceAwaited(s, s.history.index, v, t) == Replace(s, s.history.index, v, t)
  {
    EchoIsNotRecorded(Replace(s, s.history.index, v, t), t);
  }

  // ---------------------------------------------------------------------
  // history-utility.spec.ts and the vanilla tests

  /** After one increment, one undo shows 0 and a redo shows 1. */
  lemma UndoRedoFromOne(s: State, t: Time)
    requires CountedTo(s, 1)
    ensures var u := UndoAwaited(s, t);
      u.value == Counter(0) && RedoAwaited(u, t).value == Counter(1)
  {
    UndoAwaitedShows(s, t);
    RedoAwaitedShows(UndoAwaited(s, t), t);
  }

  /** Basic history: after one increment, `undo()` shows 0 again and `redo()`
      shows 1. */
  lemma BasicUndoRedo(t: Time)
    ensures var u := UndoAwaited(CountTo(1, t), t);
      && u.value == Counter(0)
      && RedoAwaited(u, t).value == Counter(1)
  {
    CountToShape(1, t);
    UndoRedoFromOne(CountTo(1, t), t);
  }

  /** After two increments, one and then two undos with the enabled flags. */
  lemma UndoTwiceFromTwo(s: State, t: Time)
    requires CountedTo(s, 2)
    ensures var u := UndoTimes(s, 1, t);
      u.value == Counter(1) && CanRedo(u) && CanUndo(u)
    ensures var u := UndoTimes(s, 2, t);
      u.value == Counter(0) && CanRedo(u) && !CanUndo(u)
  {
    UndoTimesShows(s, 1, t);
    UndoTimesShows(s, 2, t);
  }

  /** Sequential undo: the value and the enabled flags after construction,
      after each of two increments and after each of two undos. */
  lemma SequentialUndo(t: Time)
    ensures var s := CountTo(0, t);
      s.value == Counter(0) && !CanRedo(s) && !CanUndo(s)
    ensures var s := CountTo(1, t);
      s.value == Counter(1) && !CanRedo(s) && CanUndo(s)
    ensures var s := CountTo(2, t);
      s.value == Counter(2) && !CanRedo(s) && CanUndo(s)
    ensures var u := UndoTimes(CountTo(2, t), 1, t);
      u.value == Counter(1) && CanRedo(u) && CanUndo(u)
    ensures var u := UndoTimes(CountTo(2, t), 2, t);
      u.value == Counter(0) && CanRedo(u) && !CanUndo(u)
  {
    CountToShape(0, t);
    CountToShape(1, t);
    CountToShape(2, t);
    UndoTwiceFromTwo(CountTo(2, t), t);
  }

  /** After three increments, three undos and then one, two and three redos,
      with the enabled flags after each. */
  lemma UndoRedoFromThree(s: State, t: Time)
    requires CountedTo(s, 3)
    ensures var u := UndoTimes(s, 3, t);
      && u.value == Counter(0) && CanRedo(u) && !CanUndo(u)
      && var r1 := RedoTimes(u, 1, t);
      && r1.value == Counter(1) && CanRedo(r1) && CanUndo(r1)
      && var r2 := RedoTimes(u, 2, t);
      && r2.value == Counter(2) && CanRedo(r2) && CanUndo(r2)
      && var r3 := RedoTimes(u, 3, t);
      && r3.value == Counter(3) && !CanRedo(r3) && CanUndo(r3)
  {
    UndoTimesShows(s, 3, t);
    var u := UndoTimes(s, 3, t);
    RedosFromZero(u, 1, t);
    RedosFromZero(u, 2, t);
    RedosFromZero(u, 3, t);
  }

  /** `k` redos from the first of four counts show count `k`; redo stays
      enabled until the last. */
  lemma RedosFromZero(u: State, k: nat, t: Time)
    requires u.history.index == 0 && |u.history.nodes| == 4 && u.variant.Legacy?
    requires forall j :: 0 <= j <= 3 ==> u.history.nodes[j].snapshot == Counter(j)
    requires 1 <= k <= 3
    ensures var r := RedoTimes(u, k, t);
      r.value == Counter(k) && CanUndo(r) && (CanRedo(r) <==> k < 3)
  {
    RedoTimesShows(u, k, t);
  }

  /** Sequential redo: count to three, undo three times, then redo three
      times, with the enabled flags after each step. */
  lemma SequentialUndoRedo(t: Time)
    ensures var u := UndoTimes(CountTo(3, t), 3, t);
      && u.value == Counter(0) && CanRedo(u) && !CanUndo(u)
      && var r1 := RedoTimes(u, 1, t);
      && r1.value == Counter(1) && CanRedo(r1) && CanUndo(r1)
      && var r2 := RedoTimes(u, 2, t);
      && r2.value == Counter(2) && CanRedo(r2) && CanUndo(r2)
      && var r3 := RedoTimes(u, 3, t);
      && r3.value == Counter(3) && !CanRedo(r3) && CanUndo(r3)
  {
    CountToShape(3, t);
    UndoRedoFromThree(CountTo(3, t), t);
  }

  /** Three awaited undos after counting to five put the cursor on count 2. */
  lemma UndoThriceFromFive(s: State, t: Time)
    requires CountedTo(s, 5)
    ensures var u := UndoTimes(s, 3, t);
      && u.value == Counter(2) && u.history.index == 2 && u.variant == Legacy && u.listeners == 1
      && HoldsCounts(u.history.nodes, [0, 1, 2, 3, 4, 5])
  {
    UndoTimesShows(s, 3, t);
    SixCounts(s);
  }

  /** After counting to five and undoing three times the cursor is on count 2. */
  lemma FiveUndoneThrice(t: Time)
    ensures var s := FiveBackToTwo(t);
      && s.value == Counter(2) && s.history.index == 2 && s.variant == Legacy && s.listeners == 1
      && HoldsCounts(s.history.nodes, [0, 1, 2, 3, 4, 5]) && Snapshots(s.history.nodes) == Counters([0, 1, 2, 3, 4, 5])
  {
    CountToShape(5, t);
    UndoThriceFromFive(CountTo(5, t), t);
    HoldsCountsMeansSnapshots(FiveBackToTwo(t).history.nodes, [0, 1, 2, 3, 4, 5]);
  }

  /** Removing fails with a single node and with an index that has no node. */
  lemma RemoveNothing(t: Time)
    ensures var s := CountTo(0, t);
      && Remove(s, 0) == (s, None)
      && Remove(s, 200) == (s, None)
  {
  }

  /** `remove(1)` after counting to five. */
  lemma RemoveOneOfSix(s: State, t: Time)
    requires CountedTo(s, 5)
    ensures var r := RemoveAwaited(s, 1, t);
      && r.value == Counter(5) && r.history.index == 4
      && HoldsCounts(r.history.nodes, [0, 2, 3, 4, 5])
  {
    SixCounts(s);
  }

  /** Removing a node before the cursor: the cursor steps back with it and
      the value stays. */
  lemma RemoveEarlierNode(t: Time)
    ensures var r := RemoveAwaited(CountTo(5, t), 1, t);
      && r.value == Counter(5) && r.history.index == 4
      && HoldsCounts(r.history.nodes, [0, 2, 3, 4, 5]) && Snapshots(r.history.nodes) == Counters([0, 2, 3, 4, 5])
  {
    CountToShape(5, t);
    RemoveOneOfSix(CountTo(5, t), t);
    HoldsCountsMeansSnapshots(RemoveAwaited(CountTo(5, t), 1, t).history.nodes, [0, 2, 3, 4, 5]);
  }

  /** `remove(4)` on a log of counts 0 to 5 whose cursor is on node 2. */
  lemma RemoveFourOfSix(s: State, t: Time)
    requires s.history.index == 2 && s.value == Counter(2) && HoldsCounts(s.history.nodes, [0, 1, 2, 3, 4, 5])
    ensures var r := RemoveAwaited(s, 4, t);
      && r.value == Counter(2) && r.history.index == 2
      && HoldsCounts(r.history.nodes, [0, 1, 2, 3, 5])
  {
  }

  /** Removing a node after the cursor: cursor and value stay. */
  lemma RemoveLaterNode(t: Time)
    ensures var s := FiveBackToTwo(t);
      var r := RemoveAwaited(s, 4, t);
      && r.value == Counter(2) && r.history.index == 2
      && HoldsCounts(r.history.nodes, [0, 1, 2, 3, 5]) && Snapshots(r.history.nodes) == Counters([0, 1, 2, 3, 5])
  {
    FiveUndoneThrice(t);
    RemoveFourOfSix(FiveBackToTwo(t), t);
    HoldsCountsMeansSnapshots(RemoveAwaited(FiveBackToTwo(t), 4, t).history.nodes, [0, 1, 2, 3, 5]);
  }

  /** `remove(2)` on a log of counts 0 to 5 whose cursor is on node 2. */
  lemma RemoveTwoOfSix(s: State, t: Time)
    requires s.history.index == 2 && HoldsCounts(s.history.nodes, [0, 1, 2, 3, 4, 5]) && s.variant.Legacy?
    ensures var r := RemoveAwaited(s, 2, t);
      && r.value == Counter(3) && r.history.index == 2
      && HoldsCounts(r.history.nodes, [0, 1, 3, 4, 5])
  {
    RemoveCurrentEchoes(s, t);
  }

  /** Removing the current node when it is not the last: the cursor stays
      and the value becomes the following node's. */
  lemma RemoveCurrentNotLast(t: Time)
    ensures var s := FiveBackToTwo(t);
      var r := RemoveAwaited(s, 2, t);
      && r.value == Counter(3) && r.history.index == 2
      && HoldsCounts(r.history.nodes, [0, 1, 3, 4, 5]) && Snapshots(r.history.nodes) == Counters([0, 1, 3, 4, 5])
  {
    FiveUndoneThrice(t);
    RemoveTwoOfSix(FiveBackToTwo(t), t);
    HoldsCountsMeansSnapshots(RemoveAwaited(FiveBackToTwo(t), 2, t).history.nodes, [0, 1, 3, 4, 5]);
  }

  /** `remove(5)` after counting to five. */
  lemma RemoveFiveOfSix(s: State, t: Time)
    requires CountedTo(s, 5)
    ensures var r := RemoveAwaited(s, 5, t);
      && r.value == Counter(4) && r.history.index == 4
      && HoldsCounts(r.history.nodes, [0, 1, 2, 3, 4])
  {
    SixCounts(s);
    RemoveCurrentEchoes(s, t);
  }

  /** Removing the current node when it is the last: the cursor steps back
      and the value becomes the previous node's. */
  lemma RemoveCurrentLast(t: Time)
    ensures var r := RemoveAwaited(CountTo(5, t), 5, t);
      && r.value == Counter(4) && r.history.index == 4
      && HoldsCounts(r.history.nodes, [0, 1, 2, 3, 4]) && Snapshots(r.history.nodes) == Counters([0, 1, 2, 3, 4])
  {
    CountToShape(5, t);
    RemoveFiveOfSix(CountTo(5, t), t);
    HoldsCountsMeansSnapshots(RemoveAwaited(CountTo(5, t), 5, t).history.nodes, [0, 1, 2, 3, 4]);
  }

  /** Replacing at an index with no node changes nothing. */
  lemma ReplaceOutOfRange(t: Time)
    ensures var s := CountTo(5, t);
      ReplaceAwaited(s, 100, JsValue(Counter(100), App(1000)), t) == s
  {
    CountToShape(5, t);
  }

  /** `replace(5, {count: 100})` after counting to five. */
  lemma ReplaceAtFive(s: State, t: Time)
    requires CountedTo(s, 5)
    ensures var r := ReplaceAwaited(s, 5, JsValue(Counter(100), App(1000)), t);
      && r.value == Counter(100) && r.history.index == 5
      && HoldsCounts(r.history.nodes, [0, 1, 2, 3, 4, 100])
  {
    SixCounts(s);
    ReplaceCurrentEchoes(s, JsValue(Counter(100), App(1000)), t);
  }

  /** `replace(2, {count: 100})` on a log of counts 0 to 5 whose cursor is on
      node 2. */
  lemma ReplaceAtTwo(s: State, t: Time)
    requires s.history.index == 2 && HoldsCounts(s.history.nodes, [0, 1, 2, 3, 4, 5])
    ensures var r := ReplaceAwaited(s, 2, JsValue(Counter(100), App(1000)), t);
      && r.value == Counter(100) && r.history.index == 2
      && HoldsCounts(r.history.nodes, [0, 1, 100, 3, 4, 5])
  {
    ReplaceCurrentEchoes(s, JsValue(Counter(100), App(1000)), t);
  }

  /** Replacing the current node, last or not, rewrites that node and the
      value; the log keeps its length and the cursor stays. */
  lemma ReplaceCurrent(t: Time)
    ensures var r := ReplaceAwaited(CountTo(5, t), 5, JsValue(Counter(100), App(1000)), t);
      && r.value == Counter(100) && r.history.index == 5
      && HoldsCounts(r.history.nodes, [0, 1, 2, 3, 4, 100]) && Snapshots(r.history.nodes) == Counters([0, 1, 2, 3, 4, 100])
    ensures var s := FiveBackToTwo(t);
      var r := ReplaceAwaited(s, 2, JsValue(Counter(100), App(1000)), t);
      && r.value == Counter(100) && r.history.index == 2
      && HoldsCounts(r.history.nodes, [0, 1, 100, 3, 4, 5]) && Snapshots(r.history.nodes) == Counters([0, 1, 100, 3, 4, 5])
  {
    CountToShape(5, t);
    ReplaceAtFive(CountTo(5, t), t);
    FiveUndoneThrice(t);
    ReplaceAtTwo(FiveBackToTwo(t), t);
    HoldsCountsMeansSnapshots(ReplaceAwaited(CountTo(5, t), 5, JsValue(Counter(100), App(1000)), t).history.nodes, [0, 1, 2, 3, 4, 100]);
    HoldsCountsMeansSnapshots(ReplaceAwaited(FiveBackToTwo(t), 2, JsValue(Counter(100), App(1000)), t).history.nodes, [0, 1, 100, 3, 4, 5]);
  }

  /** `replace(3, {count: 100})` then `replace(4, {count: 200})` on a log of
      counts 0 to 5 whose cursor is on node 2. */
  lemma ReplaceThreeAndFour(s: State, t: Time)
    requires s.history.index == 2 && s.value == Counter(2) && HoldsCounts(s.history.nodes, [0, 1, 2, 3, 4, 5])
    ensures var r := ReplaceAwaited(ReplaceAwaited(s, 3, JsValue(Counter(100), App(1000)), t), 4, JsValue(Counter(200), App(1001)), t);
      && r.value == Counter(2) && r.history.index == 2
      && HoldsCounts(r.history.nodes, [0, 1, 2, 100, 200, 5])
  {
  }

  /** Replacing two nodes other than the current one rewrites just those
      nodes; cursor and value stay. */
  lemma ReplaceNonCurrent(t: Time)
    ensures var s := FiveBackToTwo(t);
      var r := ReplaceAwaited(ReplaceAwaited(s, 3, JsValue(Counter(100), App(1000)), t), 4, JsValue(Counter(200), App(1001)), t);
      && r.value == Counter(2) && r.history.index == 2
      && HoldsCounts(r.history.nodes, [0, 1, 2, 100, 200, 5]) && Snapshots(r.history.nodes) == Counters([0, 1, 2, 100, 200, 5])
  {
    FiveUndoneThrice(t);
    ReplaceThreeAndFour(FiveBackToTwo(t), t);
    HoldsCountsMeansSnapshots(ReplaceAwaited(ReplaceAwaited(FiveBackToTwo(t), 3, JsValue(Counter(100), App(1000)), t), 4, JsValue(Counter(200), App(1001)), t).history.nodes, [0, 1, 2, 100, 200, 5]);
  }

  // ---------------------------------------------------------------------
  // Further sessions

  /** Two awaited undos after counting to three put the cursor on count 1,
      written by the engine. */
  lemma UndoTwiceFromThree(s: State, t: Time)
    requires CountedTo(s, 3)
    ensures var u := UndoTimes(s, 2, t);
      && u.history.index == 1 && HoldsCounts(u.history.nodes, [0, 1, 2, 3])
      && u.listeners == 1 && u.history.wip.content == Counter(1)
  {
    UndoTimesShows(s, 2, t);
    FourCounts(s);
  }

  /** An increment to 2 on a log of counts 0 to 3 whose cursor is on node 1,
      after an internal write of count 1. */
  lemma IncrementAtOne(u: State, t: Time)
    requires u.history.index == 1 && HoldsCounts(u.history.nodes, [0, 1, 2, 3]) && u.listeners == 1
    requires u.history.wip.content == Counter(1)
    ensures var s := Increment(u, 2, t);
      && s.value == Counter(2) && s.history.index == 2
      && HoldsCounts(s.history.nodes, [0, 1, 2]) && !CanRedo(s)
  {
    var op := Set(["value", "count"], JsValue(Num(2), App(0)));
    assert !IsEcho(op, u.history.wip);
    assert ShouldSaveHistory([op], u.history.wip);
    MutationRecords(u, Counter(2), [op], t);
  }

  /** A change made after undoing drops the undone nodes: count to three,
      undo twice, increment, and the log holds 0, 1, 2 with nothing to redo. */
  lemma ChangeAfterUndoDropsRedoTail(t: Time)
    ensures var s := Increment(UndoTimes(CountTo(3, t), 2, t), 2, t);
      && s.value == Counter(2) && s.history.index == 2
      && HoldsCounts(s.history.nodes, [0, 1, 2]) && Snapshots(s.history.nodes) == Counters([0, 1, 2]) && !CanRedo(s)
  {
    CountToShape(3, t);
    UndoTwiceFromThree(CountTo(3, t), t);
    IncrementAtOne(UndoTimes(CountTo(3, t), 2, t), t);
    HoldsCountsMeansSnapshots(Increment(UndoTimes(CountTo(3, t), 2, t), 2, t).history.nodes, [0, 1, 2]);
  }

  /** `goTo(4)` then `goTo(100)` after counting to five. */
  lemma GoToFourOfSix(s: State, t: Time)
    requires CountedTo(s, 5)
    ensures var g := GoToAwaited(s, 4, t);
      && g.value == Counter(4) && g.history.index == 4
      && HoldsCounts(g.history.nodes, [0, 1, 2, 3, 4, 5])
      && GoToAwaited(g, 100, t) == g
  {
    SixCounts(s);
    EchoIsNotRecorded(GoTo(s, 4), t);
  }

  /** Jumping: from the end of a log of six counts, `goTo(4)` shows count 4
      with the log intact, and `goTo(100)` afterwards changes nothing. */
  lemma GoToAnywhere(t: Time)
    ensures var g := GoToAwaited(CountTo(5, t), 4, t);
      && g.value == Counter(4) && g.history.index == 4
      && HoldsCounts(g.history.nodes, [0, 1, 2, 3, 4, 5]) && Snapshots(g.history.nodes) == Counters([0, 1, 2, 3, 4, 5])
      && GoToAwaited(g, 100, t) == g
  {
    CountToShape(5, t);
    GoToFourOfSix(CountTo(5, t), t);
    HoldsCountsMeansSnapshots(GoToAwaited(CountTo(5, t), 4, t).history.nodes, [0, 1, 2, 3, 4, 5]);
  }

  // ---------------------------------------------------------------------
  // Several calls in one event handler (history-utility.react.spec.tsx)

  /** `{nested: {count: n}}` */
  function Nested(n: int): Value {
    Obj([Prop("nested", Counter(n))])
  }

  /** `++state.value.nested.count` bringing the count to `n`, and the batch
      that reports it. */
  function IncrementNested(s: State, n: int, t: Time): State {
    Mutate(s, Nested(n), [Set(["value", "nested", "count"], JsValue(Num(n), App(0)))], t)
  }

  /** Two `undo()` calls in one event handler: valtio reports both writes in
      a single batch once the handler returns. */
  function UndoTwiceAwaited(s: State, t: Time): State {
    var u1 := Undo(s);
    var u2 := Undo(u1);
    Notify(u2, [Set(["value"], u1.history.wip), Set(["value"], u2.history.wip)], t)
  }

  /** Two `redo()` calls in one event handler, reported as one batch. */
  function RedoTwiceAwaited(s: State, t: Time): State {
    var r1 := Redo(s);
    var r2 := Redo(r1);
    Notify(r2, [Set(["value"], r1.history.wip), Set(["value"], r2.history.wip)], t)
  }

  /** The batch from two undos in one handler is dropped, because its last
      write is the echo: the cursor lands two nodes back on its snapshot. */
  lemma UndoTwiceShows(s: State, t: Time)
    requires Valid(s) && s.history.index >= 2 && s.variant.Legacy?
    ensures var r := UndoTwiceAwaited(s, t);
      && r.history.nodes == s.history.nodes
      && r.history.index == s.history.index - 2
      && r.value == s.history.nodes[s.history.index - 2].snapshot
      && r.listeners == s.listeners && r.variant == s.variant
  {
    var u1 := Undo(s);
    var u2 := Undo(u1);
    BatchWithEchoIsNotRecorded(u2, [Set(["value"], u1.history.wip), Set(["value"], u2.history.wip)], 1, t);
  }

  /** Likewise for two redos in one handler. */
  lemma RedoTwiceShows(s: State, t: Time)
    requires Valid(s) && s.history.index + 2 < |s.history.nodes| && s.variant.Legacy?
    ensures var r := RedoTwiceAwaited(s, t);
      && r.history.nodes == s.history.nodes
      && r.history.index == s.history.index + 2
      && r.value == s.history.nodes[s.history.index + 2].snapshot
      && r.listeners == s.listeners && r.variant == s.variant
  {
    var r1 := Redo(s);
    var r2 := Redo(r1);
    BatchWithEchoIsNotRecorded(r2, [Set(["value"], r1.history.wip), Set(["value"], r2.history.wip)], 1, t);
  }

  /** Two undos and then two redos, each pair in one handler, on a log of
      three nested counts with the cursor on the last. */
  lemma TwiceBackAndForth(s: State, t: Time)
    requires Valid(s) && s.variant.Legacy? && s.history.index == 2 && |s.history.nodes| == 3
    requires forall k :: 0 <= k < 3 ==> s.history.nodes[k].snapshot == Nested(k)
    ensures var u := UndoTwiceAwaited(s, t);
      var r := RedoTwiceAwaited(u, t);
      && u.value == Nested(0) && u.history.index == 0 && |u.history.nodes| == 3
      && r.value == Nested(2) && r.history.index == 2 && |r.history.nodes| == 3
  {
    UndoTwiceShows(s, t);
    var u := UndoTwiceAwaited(s, t);
    assert Valid(u) && u.history.index == 0 && |u.history.nodes| == 3;
    RedoTwiceShows(u, t);
  }

  /** A nested increment at the end of the log, with a scratch value that is
      not a number, is recorded as one more node. */
  lemma IncrementNestedRecords(p: State, n: int, t: Time)
    requires Valid(p) && p.history.index == |p.history.nodes| - 1 && p.listeners == 1
    requires !p.history.wip.content.Num?
    ensures var s := IncrementNested(p, n, t);
      && s.variant == p.variant && s.listeners == 1 && s.history.wip == p.history.wip
      && s.value == Nested(n) && s.history.index == p.history.index + 1
      && s.history.nodes == p.history.nodes + [Node(Nested(n), t, None)]
  {
    var op := Set(["value", "nested", "count"], JsValue(Num(n), App(0)));
    assert !IsEcho(op, p.history.wip);
    assert ShouldSaveHistory([op], p.history.wip);
    MutationRecords(p, Nested(n), [op], t);
    assert p.history.nodes[..p.history.index + 1] == p.history.nodes;
  }

  /** Counting a nested counter to two records three nodes. */
  lemma NestedCountToTwo(t: Time)
    ensures var s := IncrementNested(IncrementNested(Create(Legacy, Nested(0), t, NoOptions), 1, t), 2, t);
      && s.variant == Legacy && s.value == Nested(2) && s.history.index == 2
      && s.history.nodes == [Node(Nested(0), t, None), Node(Nested(1), t, None), Node(Nested(2), t, None)]
  {
    var s0 := Create(Legacy, Nested(0), t, NoOptions);
    IncrementNestedRecords(s0, 1, t);
    IncrementNestedRecords(IncrementNested(s0, 1, t), 2, t);
  }

  /** Several redos at once: count a nested counter to two, undo twice in
      one handler (count 0), redo twice in one handler (count 2), and the
      log still holds three nodes. */
  lemma MultipleRedosAtOnce(t: Time)
    ensures var s := IncrementNested(IncrementNested(Create(Legacy, Nested(0), t, NoOptions), 1, t), 2, t);
      var u := UndoTwiceAwaited(s, t);
      var r := RedoTwiceAwaited(u, t);
      && s.value == Nested(2) && s.history.index == 2 && |s.history.nodes| == 3
      && u.value == Nested(0) && u.history.index == 0 && |u.history.nodes| == 3
      && r.value == Nested(2) && r.history.index == 2 && |r.history.nodes| == 3
  {
    NestedCountToTwo(t);
    TwiceBackAndForth(IncrementNested(IncrementNested(Create(Legacy, Nested(0), t, NoOptions), 1, t), 2, t), t);
  }

  // ---------------------------------------------------------------------
  // The echo test compares by `===`

  /** Whatever its origin, a primitive equal to the primitive in the scratch
      slot passes the `===` test and its write is taken for the engine's own. */
  lemma PrimitiveEqualToScratchIsDropped(s: State, w: JsValue, t: Time)
    requires !IsObject(w.content) && w.content == s.history.wip.content
    ensures Mutate(s, w.content, [Set(["value"], w)], t).history == s.history
    ensures Mutate(s, w.content, [Set(["value"], w)], t).value == w.content
  {
    assert IsEcho(Set(["value"], w), s.history.wip);
    BatchWithEchoIsNotRecorded(s.(value := w.content), [Set(["value"], w)], 0, t);
  }

  /** Recording 5 over a restored 0 keeps the restored 0 in the scratch slot. */
  lemma RecordAfterRestoringZero(u: State, t: Time)
    requires Valid(u) && u.history.index == 0 && u.listeners == 1
    requires u.history.nodes[0] == Node(Num(0), t, None) && u.history.wip.content == Num(0)
    ensures var s := Mutate(u, Num(5), [Set(["value"], JsValue(Num(5), App(0)))], t);
      && s.history.nodes == [Node(Num(0), t, None), Node(Num(5), t, None)] && s.history.index == 1
      && s.history.wip == u.history.wip && s.listeners == 1
  {
    var op := Set(["value"], JsValue(Num(5), App(0)));
    assert ShouldSaveHistory([op], u.history.wip);
    MutationRecords(u, Num(5), [op], t);
  }

  /** A number container after recording 1 and undoing it. */
  lemma RecordOneThenUndo(t: Time)
    ensures var s1 := Mutate(Create(Legacy, Num(0), t, NoOptions), Num(1), [Set(["value"], JsValue(Num(1), App(0)))], t);
      var u := UndoAwaited(s1, t);
      && Valid(u) && u.history.index == 0 && u.listeners == 1
      && u.history.nodes[0] == Node(Num(0), t, None) && u.history.wip.content == Num(0)
  {
    var s0 := Create(Legacy, Num(0), t, NoOptions);
    var op1 := Set(["value"], JsValue(Num(1), App(0)));
    assert ShouldSaveHistory([op1], s0.history.wip);
    MutationRecords(s0, Num(1), [op1], t);
    UndoAwaitedShows(Mutate(s0, Num(1), [op1], t), t);
  }

  /** The echo filter compares by `===`, so a primitive written by the
      application that equals the last primitive the engine restored is
      taken for the engine's own write: tracking a number, record 1, undo to
      0, record 5, then set 0, and the 0 is not recorded although the value
      now differs from the node under the cursor. */
  lemma RestoredPrimitiveWriteIsDropped(t: Time)
    ensures var s0 := Create(Legacy, Num(0), t, NoOptions);
      var s1 := Mutate(s0, Num(1), [Set(["value"], JsValue(Num(1), App(0)))], t);
      var u := UndoAwaited(s1, t);
      var s2 := Mutate(u, Num(5), [Set(["value"], JsValue(Num(5), App(0)))], t);
      var s3 := Mutate(s2, Num(0), [Set(["value"], JsValue(Num(0), App(7)))], t);
      && s2.history.nodes == [Node(Num(0), t, None), Node(Num(5), t, None)] && s2.history.index == 1
      && s3.value == Num(0) && s3.history == s2.history && !Synced(s3)
  {
    RecordOneThenUndo(t);
    var s1 := Mutate(Create(Legacy, Num(0), t, NoOptions), Num(1), [Set(["value"], JsValue(Num(1), App(0)))], t);
    var u := UndoAwaited(s1, t);
    RecordAfterRestoringZero(u, t);
    var s2 := Mutate(u, Num(5), [Set(["value"], JsValue(Num(5), App(0)))], t);
    PrimitiveEqualToScratchIsDropped(s2, JsValue(Num(0), App(7)), t);
  }
}

=== FILE: values.dfy ===
/** JavaScript values as the history engine sees them, the deep clone it applies
    to snapshots, and the identity that `===` compares. */
module Values {

  /** The contents of a JavaScript value. Arrays and plain objects are the values
      the clone copies. `Ref` stands for an object the application marked with
      valtio's `ref()`: the clone hands it on by reference. `EmptyWip` is the
      private symbol the published entry point keeps in an empty scratch slot.
      Application code has no way to produce it; the model does not forbid it
      in a batch, and the lemmas about application writes speak only of
      objects at application addresses. */
  datatype Value =
    | Undefined
    | Null
    | Bool(b: bool)
    | Num(n: int)
    | Str(s: string)
    | EmptyWip
    | Ref(id: nat)
    | Arr(elems: seq<Value>)
    | Obj(props: seq<Prop>)

  /** One own property of a plain object, in `Reflect.ownKeys` order. */
  datatype Prop = Prop(key: string, val: Value)

  /** `isObject`: truthy and of type 'object'. */
  predicate IsObject(v: Value) {
    v.Ref? || v.Arr? || v.Obj?
  }

  /** The values the clone rebuilds: objects that are not ref-marked. */
  predicate IsCopied(v: Value) {
    v.Arr? || v.Obj?
  }

  /** What `??` falls back on: `null` and `undefined`. */
  predicate IsNullish(v: Value) {
    v.Undefined? || v.Null?
  }

  /** `deepClone`: primitives and ref-marked objects pass through, arrays and
      plain objects are rebuilt key by key from clones of their entries. With
      values compared by contents the copy equals the original; that it is a
      different object is recorded by `CloneAt` below. */
  function DeepClone(v: Value): (r: Value)
    ensures r == v
    decreases v, 1
  {
    match v
    case Arr(elems) => Arr(CloneElems(elems, v))
    case Obj(props) => Obj(CloneProps(props, v))
    case _ => v
  }

  /** The array branch of the clone: every element cloned, order kept. */
  function CloneElems(elems: seq<Value>, ghost parent: Value): (r: seq<Value>)
    requires parent.Arr? && forall e | e in elems :: e in parent.elems
    ensures r == elems
    decreases parent, 0, |elems|
  {
    if elems == [] then []
    else
      assert elems[0] in parent.elems;
      [DeepClone(elems[0])] + CloneElems(elems[1..], parent)
  }

  /** The object branch of the clone: every own key kept, every entry cloned. */
  function CloneProps(props: seq<Prop>, ghost parent: Value): (r: seq<Prop>)
    requires parent.Obj? && forall p | p in props :: p in parent.props
    ensures r == props
    decreases parent, 0, |props|
  {
    if props == [] then []
    else
      assert props[0] in parent.props;
      [Prop(props[0].key, DeepClone(props[0].val))] + CloneProps(props[1..], parent)
  }

  /** Where an object was made: by the engine's clone, numbered in the order
      the engine allocates, or by the application. The two kinds never
      coincide, so an object the application builds is never one of the
      engine's clones. */
  datatype Addr = Engine(n: nat) | App(n: nat)

  /** A value as it travels through an assignment: its contents and the address
      of the object it is, which `===` compares for objects. The address of a
      primitive carries no meaning. */
  datatype JsValue = JsValue(content: Value, addr: Addr)

  /** What `===` looks at: an object by its address, a ref-marked object by its
      own identity, anything else by its contents. */
  datatype Ident = Allocated(addr: Addr) | Referenced(id: nat) | Primitive(v: Value)

  function Identity(j: JsValue): Ident {
    match j.content
    case Arr(_) => Allocated(j.addr)
    case Obj(_) => Allocated(j.addr)
    case Ref(id) => Referenced(id)
    case _ => Primitive(j.content)
  }

  /** JavaScript's `===` on the values the model has. */
  predicate StrictEq(a: JsValue, b: JsValue) {
    Identity(a) == Identity(b)
  }

  /** `deepClone(v)` run by the engine, which allocates the engine's object
      number `n` when it copies one. */
  function CloneAt(v: Value, n: nat): (j: JsValue)
    ensures j.content == v && j.addr.Engine?
    ensures IsCopied(v) ==> Identity(j) == Allocated(Engine(n))
  {
    JsValue(DeepClone(v), Engine(n))
  }

  /** A copied object is a new object: it is never `===` to an original that
      lives at another address, in particular to any object the application
      made. */
  lemma CloneIsFresh(orig: JsValue, n: nat)
    requires IsCopied(orig.content) && orig.addr != Engine(n)
    ensures !StrictEq(CloneAt(orig.content, n), orig)
  {
  }

  /** No value the engine made is `===` to an object the application made. */
  lemma EngineNeverMatchesAppObject(e: JsValue, w: JsValue)
    requires e.addr.Engine? && w.addr.App? && IsCopied(w.content)
    ensures !StrictEq(w, e)
  {
  }

  /** A primitive or a ref-marked object comes back from the clone as the very
      same value under `===`, wherever the engine would have allocated. */
  lemma ClonePassesThrough(orig: JsValue, addr: nat)
    requires !IsCopied(orig.content)
    ensures StrictEq(CloneAt(orig.content, addr), orig)
  {
  }
}

=== FILE: wrappers.dfy ===
/** The optional-value datatype used for JavaScript's `undefined` results. */
module Wrappers {

  /** `None` stands for `undefined` returned in place of a value. */
  datatype Option<+T> = None | Some(value: T)
}
